=== FILE: README.md ===
# LogIAnalyzer in Dafny

A model of the decision logic of LogIAnalyzer, a service that tails Linux log
files, asks an AI service for a severity verdict on every batch of new lines,
alerts by e-mail when the verdict is critical, and mails a daily digest of all
verdicts. The model covers:

- the monitoring engine (`src/log_monitor.py`): tailing from saved positions,
  the analysis call with its empty-batch and failure fallbacks, severity
  extraction and routing, report entries, and one cycle of the monitor loop
  over the position map;
- outbound mail (`src/email_sender.py`): the raise-or-succeed contract of
  `send_email`, the alert's emoji band and subject, and the daily flush with
  its archive copy and reset marker;
- configuration (`src/config_loader.py`): `validate_configuration` with
  Python truthiness and its fixed error order, and the `log_files`
  comma-split expression;
- the original single-file monitor (`logianalyzer.py`): its reader, its
  token-based severity heuristic and its mailing decision. It is set against
  the engine on concrete analyses where the two disagree.

The environment is made of values:

- The file system is a map from path to `Present(content) | Denied | Broken`.
  A missing key is a missing file.
- The AI service is a function from a batch of lines to `Reply(text)` or
  `Raised(detail)`.
- The mail server is a function from a message to a delivery outcome.
- Timestamps and dates are given strings.
- A cycle's thread pool is modelled as its tasks run one after another. The
  set `failed` names the tasks whose result was not collected.

Files:

- `common.dfy`: `Option` and `Result`.
- `text.dfy`: Python `str` operations as used here, over `seq<char>`.
- `paths.dfy`: `posixpath`.
- `host.dfy`: the environment.
- `tailer.dfy`, `severity.dfy`, `email_sender.dfy`, `log_monitor.dfy`,
  `config_loader.dfy`: the engine.
- `legacy.dfy`: the original monitor.

## Behaviour worth knowing

- A position beyond the end of a shrunken file reads nothing and keeps the
  position, so truncation is never detected (`Tailer.ReadNewLogs`).
- The digest is archived and reset only after a delivered send. A failed
  send leaves the report as it was (`EmailSender.SendDailyReport`).
- The archive is written in mode `"w"`, so a second archive on the same day
  overwrites the first (`EmailSender.ArchiveReport`).
- The pattern is `SEVERITY_SCORE:\s*(\d+)`, searched with `re.search`. The
  whitespace after the colon is optional. A token not followed by digits does
  not stop the search: the leftmost position where the whole pattern matches
  wins (`Severity.FindMatch`).
- A report that can be read but not written is sent again every day.
  After a delivered send, the reset's permission error is caught and printed,
  and `send_daily_report` still returns True (`EmailSender.ReadOnlyDigestIsSentAgain`).
  Entries saved to it are dropped the same way (`LogMonitor.DigestKeepsEntriesInOrder`).
- A report path with no directory part, such as `rapport.txt`, makes
  `os.makedirs("")` raise when the report does not exist yet, so the monitor
  exits at start (`LogMonitor.BareReportNameStopsStart`).

## Model

| member | source | states |
|---|---|---|
| Text.SplitOn | src/config_loader.py:69 | `str.split(',')`: one piece more than there are separators, no piece holds the separator, and joining the pieces with it gives the text back |
| Text.SplitOnJoinWith | src/config_loader.py:69 | splitting the comma-join of separator-free pieces gives back exactly those pieces |
| Text.IntToString | src/email_sender.py:100 | the decimal text of a score reads back as the score (a minus sign then the digits of its magnitude when negative) |
| Text.Tokens | logianalyzer.py:108 | every token of `str.split()` is non-empty and holds no whitespace |
| Text.TokensKeepEveryNonSpace | logianalyzer.py:108 | the tokens of `str.split()` concatenate to the text with its whitespace removed: nothing but whitespace is lost |
| Text.TokensOfWordThen | logianalyzer.py:108 | a word followed by whitespace is the first token, and splitting carries on after the whitespace |
| Paths.Basename | src/email_sender.py:100 | `os.path.basename` holds no `/` and is the suffix of the path after its last `/` |
| Paths.JoinThenSplit | src/email_sender.py:178-184 | `dirname(join(d, n)) == d` and `basename(join(d, n)) == n` for a plain name and a directory without a trailing slash |
| Host.WriteFile | src/email_sender.py:186-187 | a write leaves every other path as it was; a missing or writable target ends up holding exactly the text; a target that cannot be opened for writing (read-only, permission denied, or another I/O error, all caught) leaves the whole file system as it was |
| Host.WriteTwiceKeepsLast | src/email_sender.py:197-198 | mode `"w"` truncates: writing twice leaves what writing only the second text leaves |
| Host.AppendFile | src/log_monitor.py:145-147 | an append leaves every other path as it was; a writable target ends up holding its old content followed by the text; a missing one is created holding just the text; a target that cannot be opened for appending, a read-only one included, leaves the whole file system as it was |
| Host.AppendTwice | src/log_monitor.py:145-147 | two appends in a row leave the file as one append of both texts, in order |
| Tailer.SplitLines | src/log_monitor.py:47 | `readlines()`: the lines concatenate to the text, none is empty, and every line but the last ends with its line break |
| Tailer.SplitLinesAfterLine | src/log_monitor.py:47 | a whole terminated line at the head of a text is its first line, followed by the lines of the rest |
| Tailer.ReadNewLogs | src/log_monitor.py:33-61 | from a position within a readable file: lines that concatenate to exactly the text after the position, each ending at its line break and only the last possibly unterminated (so, by `LinesDetermined`, exactly the lines `readlines()` gives), and the end of the file as the new position; a missing, unreadable or broken file, or a position beyond the end: no lines and the position unchanged |
| Tailer.LinesDetermined | src/log_monitor.py:47 | any non-empty lines that concatenate to a text, with a line break ending all but the last, are the lines `readlines()` returns for it |
| Tailer.LastLineIsWhole | src/log_monitor.py:47 | a text with no line break before its last character is read as one line |
| Tailer.ReadAfterAppend | src/log_monitor.py:44-49 | a read from 0 returns the file's length; after an append, reading from that position returns exactly the appended text and the new end |
| Tailer.TailingIsComplete | src/log_monitor.py:44-49 | while a file only grows, polling it and feeding back each returned position collects every character after the start position exactly once and in order |
| Tailer.ThreeLinesThenOne | tests/test_log_analyzer.py:156-172 | three lines read from 0 give three lines and a positive position; after a fourth line is appended, reading from there gives just that line |
| Severity.FindMatch | src/log_monitor.py:128 | `re.search`: the position found is a match and no earlier position is; no position is reported only when there is no match at all |
| Severity.ExtractSeverityScore | src/log_monitor.py:118-132 | the score is always in 0..10; with no match it is 0; otherwise it is the clamped value of the leftmost match's whole digit run |
| Severity.Clamp | src/log_monitor.py:131 | `max(0, min(10, n))`: within 0..10, values in range kept, above 10 becomes 10, below 0 becomes 0 |
| Severity.LeadingScoreLine | src/log_monitor.py:128-131 | a text that opens with the token, optional whitespace and digits scores the clamped value of those digits, whatever follows, later tokens included |
| Severity.NoTokenNoScore | src/log_monitor.py:132 | a text with no `S` in it, so no token, scores 0 |
| Severity.ScoreEightIsEight | tests/test_log_analyzer.py:178-181 | "SEVERITY_SCORE: 8" followed by text scores 8 |
| Severity.NoScoreIsZero | tests/test_log_analyzer.py:183-186 | "No score in this analysis" scores 0 |
| Severity.ScoreFifteenIsClamped | tests/test_log_analyzer.py:188-191 | "SEVERITY_SCORE: 15" scores 10 |
| EmailSender.SendEmail | src/email_sender.py:16-72 | `send_email` succeeds, with True, exactly when the message is delivered; otherwise it raises `EmailSenderError`, with the authentication message on an authentication failure; it never returns False |
| EmailSender.EmojiBands | src/email_sender.py:88-98 | scores 1-3 get the warning emoji, 4-6 the anomaly emoji, and every other score, 7-10 and anything outside 1..10, the critical one |
| EmailSender.AlertSubjectNamesFileAndScore | src/email_sender.py:100 | the alert subject contains the log file's base name, holds no `/`, and ends with ` (Score: n)` where `n` reads back as the score |
| EmailSender.AlertSubjectEndsWithScore | src/email_sender.py:100 | for any score, the subject's last characters are exactly ` (Score: `, the score's decimal text and `)` |
| EmailSender.AlertCarriesAnalysis | src/email_sender.py:102-120 | the alert body contains the whole analysis |
| EmailSender.SendAlertEmail | src/email_sender.py:122-126 | `send_alert_email` returns True exactly when the alert is delivered, and False instead of raising |
| EmailSender.ArchiveLocation | src/email_sender.py:178-184 | the archive sits in `archives` next to the report, named `rapport_<date>.txt` |
| EmailSender.SendDailyReport | src/email_sender.py:129-172 | no report: True and nothing else; an unreadable report: False and nothing else; blank or marker-only: no mail, True, and the report reset when it is writable; otherwise exactly one mail carrying the whole report, and when it is delivered the result is True, the archive is written and the report is reset if writable and kept as it was if read-only; when it is not delivered nothing changes and the result is False; no other file is touched |
| EmailSender.ResetContentIsEmptyReport | src/email_sender.py:150 | the marker line written by the reset strips to the marker, so it counts as nothing to report |
| EmailSender.FlushOfNothingToReport | src/email_sender.py:150-153 | a blank or marker-only report gives no mail and the result True; a writable one is reset to the marker, a read-only one stays as it was |
| EmailSender.FlushOfMarkerOnly | src/email_sender.py:150-153 | a report holding just the marker line, writable or not: the flush returns True, sends nothing and changes nothing |
| EmailSender.FlushAfterResetSendsNothing | src/email_sender.py:194-200 | right after a reset of a missing or writable report, a flush sends nothing, returns True and leaves the files as they were |
| EmailSender.SecondFlushSendsNothing | src/email_sender.py:159-166 | after a successful flush of a writable report, the next flush sends nothing |
| EmailSender.ReadOnlyDigestIsSentAgain | src/email_sender.py:159-168 | after a successful flush of a report that can be read but not written, the report is unchanged and the next flush sends exactly the same mail again |
| LogMonitor.AnalyzeLogs | src/log_monitor.py:64-115 | the analysis of an empty batch and the fallback after a service failure both score 0; a reply is returned stripped |
| LogMonitor.EmptyBatchNeverReachesGateway | src/log_monitor.py:75-76 | an empty batch gets the same fixed analysis whatever the service would answer |
| LogMonitor.SaveAnalysisToReport | src/log_monitor.py:135-151 | a missing or writable report gets the entry appended to what it held, a missing one created; one that cannot be opened for appending, a read-only one included, is left as it was; no other file changes |
| LogMonitor.DigestKeepsEntriesInOrder | src/log_monitor.py:144-147 | saving entries one after another leaves a writable report holding its old content followed by the entries in order, and leaves the file system unchanged when the report is read-only |
| LogMonitor.DigestIsSentWhole | src/email_sender.py:146-166 | after one or more entries are saved to a fresh writable report, the flush sends one message holding the marker and all entries in order, and a delivered digest leaves the report back at the marker; a fresh read-only report keeps no entry, and its flush sends nothing, returns True and changes nothing |
| LogMonitor.Route | src/log_monitor.py:176-184 | scores of 7 or more alert, scores 1 to 6 are anomalies only, scores of 0 or less are clean, and the decision carries the score |
| LogMonitor.ProcessLogFile | src/log_monitor.py:154-186 | a task returns its read's position, changes no file but the report, and sends one alert exactly when it decides critical, none otherwise |
| LogMonitor.ProcessLogFileOutcome | src/log_monitor.py:166-186 | no new lines: no entry, no alert; new lines: exactly one entry holding the analysis, routing on its score, and exactly one alert carrying it when the score is 7 or more, none otherwise |
| LogMonitor.GatewayFailureIsRecordedWithoutAlert | src/log_monitor.py:112-115 | a batch whose service call fails is routed clean and sends no alert |
| LogMonitor.InitializeDailyReport | src/log_monitor.py:189-212 | the program exits exactly when the report is missing and its path has no directory part (`os.makedirs("")` raises); otherwise a missing report is created holding the marker line, an existing one is left as it was, and no other file changes |
| LogMonitor.StartMonitoring | src/log_monitor.py:222-231 | the start exits exactly when the report initialisation does; otherwise every configured file starts at position 0, no other file has a position, the report exists and no mail has been sent |
| LogMonitor.BareReportNameStopsStart | src/log_monitor.py:198-212 | a missing report named without any `/`, such as `rapport.txt`, ends the program at start |
| LogMonitor.RunTasks | src/log_monitor.py:237-244 | one task per configured file, each from its saved position; only the report changes, and every file's returned position is the end its read reached |
| LogMonitor.CollectPositions | src/log_monitor.py:246-250 | collecting the futures keeps the same files; a file whose task returned takes that position unless the task failed; every other file keeps its own |
| LogMonitor.MonitorCycle | src/log_monitor.py:235-256 | one loop pass: a file whose task failed, or that is not configured, keeps its position; every other configured file moves to the end its read reached; with no flush due only the report changes; mail is only ever added |
| LogMonitor.CollectedTaskPositions | src/log_monitor.py:246-250 | the positions a cycle collects: the read's end for a file whose task returned, the saved one for every other file |
| LogMonitor.MissingFileKeepsPosition | src/log_monitor.py:51-53 | a configured file that does not exist keeps its position through a cycle |
| LogMonitor.QuietCycleChangesNothing | src/log_monitor.py:166-186 | a cycle with nothing new in any file and no flush due leaves the whole state as it was |
| LogMonitor.QuietTasks | src/log_monitor.py:166-186 | tasks over files with nothing new change no file, send no alert and return the saved positions |
| LogMonitor.QuietTasksCollected | src/log_monitor.py:246-250 | collecting the results of such tasks, failed ones or not, leaves every position as it was |
| ConfigLoader.ValidateConfiguration | src/config_loader.py:101-140 | the verdict is true exactly when the list is empty, and the list is the messages of the reported errors in order |
| ConfigLoader.ChecksFromMembers | src/config_loader.py:111-140 | the checks from a position on report exactly the failing checks at or after it |
| ConfigLoader.ChecksFromOrder | src/config_loader.py:111-140 | the checks report their errors in check order |
| ConfigLoader.ReportedIffFails | src/config_loader.py:119-138 | an error is reported exactly when its check's condition holds |
| ConfigLoader.ErrorsInCheckOrder | src/config_loader.py:111-140 | errors come in fixed order: the required fields in list order, then sender, receiver, port, temperature and interval, each at most once |
| ConfigLoader.RequiredFieldErrors | src/config_loader.py:114-121 | a required-field error for each required field that is absent or falsy, and for no other |
| ConfigLoader.ValueCheckErrors | src/config_loader.py:123-138 | a format error for a truthy address without `@`, and a range error for a truthy port outside 1..65535, a truthy temperature outside [0, 2] or a truthy interval below 1, in both directions |
| ConfigLoader.ErrorMessageInjective | src/config_loader.py:121-138 | different errors have different messages |
| ConfigLoader.ExactlyTheseErrors | src/config_loader.py:111-140 | a list in check order that names exactly the failing checks is the list the validator returns |
| ConfigLoader.SampleConfigIsValid | tests/test_log_analyzer.py:31-47 | the complete sample configuration validates as (True, []) |
| ConfigLoader.SenderWithoutAtIsReported | tests/test_log_analyzer.py:49-63 | a sender without `@` gives exactly the sender-format error |
| ConfigLoader.PortOutOfRangeIsReported | tests/test_log_analyzer.py:65-79 | port 99999 gives exactly the port-range error |
| ConfigLoader.MissingFieldsAreReportedInOrder | tests/test_log_analyzer.py:81-93 | the four-entry configuration reports the receiver, the API key and the SMTP password missing, in that order |
| ConfigLoader.ZeroSkipsRangeChecks | src/config_loader.py:131-138 | zero is falsy: a zero port is reported missing but not out of range, and a zero temperature or interval is not checked at all |
| ConfigLoader.AbsentAddressHasNoFormatError | src/config_loader.py:124-128 | an absent sender or receiver gets its required-field error and never a format error as well |
| ConfigLoader.ParseLogFiles | src/config_loader.py:69 | the `log_files` setting gives one path more than it has commas; path i is the i-th comma-separated piece with its surrounding whitespace stripped, so none holds a comma or starts or ends with whitespace |
| ConfigLoader.StripPiece | src/config_loader.py:69 | each path is its stripped piece: no whitespace at either end, and still free of commas |
| ConfigLoader.ParseLogFilesOfJoin | src/config_loader.py:69 | any pieces without commas, written comma-separated, parse back to those pieces, each stripped |
| ConfigLoader.SpacedPairParses | src/config_loader.py:69 | the usual spaced form `a, b` of two plain names parses to exactly `[a, b]` |
| ConfigLoader.EmptySettingIsOneEmptyPath | src/config_loader.py:69 | an empty setting parses to a single empty path |
| LegacyAnalyzer.LegacyReadNewLogs | logianalyzer.py:24-34 | a missing file gives no lines and keeps the position; any other open error escapes; a readable file read from within its text gives the text after the position and the end position |
| LegacyAnalyzer.LegacyReadAgreesWithEngine | logianalyzer.py:24-34 | where the legacy reader survives it reads what the engine's reader reads; where it escapes, the engine's reader returns nothing and keeps the position |
| LegacyAnalyzer.LegacyAnalyze | logianalyzer.py:37-69 | no lines: a fixed sentence and no call; otherwise the legacy call's reply text, stripped, and a failure of that call escapes |
| LegacyAnalyzer.Candidates | logianalyzer.py:108 | no more candidates than tokens, each between 1 and 10 |
| LegacyAnalyzer.CandidatesMembers | logianalyzer.py:108 | a value is a candidate exactly when some token is all digits with that value in 1..10; numbers outside the range, such as 15, are dropped, not clamped |
| LegacyAnalyzer.CandidatesNone | logianalyzer.py:108 | without a score token there are no candidates |
| LegacyAnalyzer.MaxOf | logianalyzer.py:109 | `max` is a member of the list and at least every element |
| LegacyAnalyzer.HighCandidateIffHighToken | logianalyzer.py:108-109 | the candidate list is non-empty with maximum 7 or more exactly when some token is a number from 7 to 10 |
| LegacyAnalyzer.LegacyCriticalIffHighToken | logianalyzer.py:108-110 | the legacy alert fires exactly when some whitespace-separated token of the analysis is a number from 7 to 10 |
| LegacyAnalyzer.LegacyEmails | logianalyzer.py:103-110 | an analysed batch sends the analysis mail first, and a second, alert mail exactly when the heuristic finds it critical |
| LegacyAnalyzer.LegacyHandleFile | logianalyzer.py:99-110 | a file's turn survives exactly when its read does not escape and a non-empty batch gets a reply; it records the position the read returned |
| LegacyAnalyzer.LegacyHandleFileMail | logianalyzer.py:103-110 | an empty batch sends no mail; a non-empty one sends the analysis mail and, when critical, the alert |
| LegacyAnalyzer.Distinct | logianalyzer.py:95-99 | the keys of the futures dict: every listed file exactly once, nothing else, in the order of each file's first occurrence in the list, which is the order the results are taken, mails sent and crashes met |
| LegacyAnalyzer.RunFiles | logianalyzer.py:99-110 | the inner loop completes exactly when every file survives, and mail already sent is kept |
| LegacyAnalyzer.RunFilesPositions | logianalyzer.py:99-101 | a completed run overwrites each handled file's position with what its read returned and keeps every other position |
| LegacyAnalyzer.LegacyStart | logianalyzer.py:91 | every listed file starts at position 0 |
| LegacyAnalyzer.LegacyCycle | logianalyzer.py:93-112 | a pass completes exactly when every file survives; then every listed file has the position its read returned and other keys are kept |
| LegacyAnalyzer.AnalysisFailureStopsThePass | logianalyzer.py:103-104 | a listed file with new lines whose analysis call fails makes the pass crash rather than complete |
| LegacyAnalyzer.QuietLegacyCycle | logianalyzer.py:96-103 | when every listed file is missing or already read to its end, a pass completes, sends nothing and moves no position |
| LegacyAnalyzer.ScoredAnalysisTokens | logianalyzer.py:108 | the tokens of a protocol-shaped analysis are the token, the digits and the two words |
| LegacyAnalyzer.ScoredAnalysisScore | src/log_monitor.py:128-131 | the engine scores a protocol-shaped analysis as the clamped value of its digits |
| LegacyAnalyzer.ScoreAboveTenAlertsOnlyInEngine | logianalyzer.py:108-110 | a protocol line above 10 with word-only prose is critical for the engine and quiet for the legacy heuristic |
| LegacyAnalyzer.ProseNumberAlertsOnlyInLegacy | logianalyzer.py:108-110 | a low protocol score with a number from 7 to 10 in the prose is only an anomaly for the engine but an alert for the legacy heuristic |
| LegacyAnalyzer.FifteenAlertsOnlyInEngine | logianalyzer.py:108-110 | "SEVERITY_SCORE: 15 / Invalid score" is critical for the engine and quiet for the legacy heuristic |
| LegacyAnalyzer.NineErrorsAlertsOnlyInLegacy | logianalyzer.py:108-110 | "SEVERITY_SCORE: 2 / 9 erreurs" is an anomaly for the engine and an alert for the legacy heuristic |

## Left out

- The AI client and its prompt text, and the SMTP session with its MIME encoding, are left out because they are foreign services. They appear only as the `Gateway` and `Transport` functions.
- LegacyAnalyzer.LegacyAnalyze: the legacy call is its own `legacyGateway`, separate from the engine's gateway. The two programs send different requests: the legacy sends the fixed model `mistral-large-latest`, its own prompt and the batch as a Python list repr, while the engine sends the configured model, another prompt and the joined lines. They also read the reply differently: the legacy subscripts it (`response["choices"][0]["message"]["content"]`), the engine uses attribute access. If the client's response object is not subscriptable, every legacy call raises. The model covers that case as a `Raised` reply, which `AnalysisFailureStopsThePass` shows ends the pass, but it does not decide which case the real client produces.
- The thread pool, the 60-second result timeout and the outer `except` of the loop are left out as concurrency. A task whose result is not collected is named in the `failed` set, and its effects on the report still happen.
- Signals, `shutdown_flag`, `time.sleep`, the `schedule` trigger at 04:00, `datetime.now()` and `date.today()` are left out as OS and clock facilities. Whether a flush is due, and its date, are parameters of a cycle.
- EmailSender.SendDailyReport: one `date` string stands for the three `date.today()` calls in the subject, the success message and the archive name. If the flush runs across midnight, the program can name the archive for a different day than the subject; the model does not represent that.
- UTF-8 decoding with `errors='ignore'` and text-mode `seek`/`tell` cookies are left out because they concern encoding. Positions are character indices into the decoded text.
- Tailer.SplitLines: a file's `content` is the text that text-mode reading yields, after universal-newline translation (`\r\n` and `\r` become `\n`). Splitting is then only at `\n`, as `readlines()` does on translated text. One case is not covered: a `\r` at the end of one read followed by a `\n` appended later. Python then yields two line breaks across the two reads, while the translated whole file holds one, so the file is no longer append-only in the model's terms.
- Tailer.ReadNewLogs: reads the translated text described for `SplitLines`, so its lines concatenate to the translated text after the position, not to the raw bytes.
- EmailSender.SendDailyReport: `read()` also applies newline translation; the report is taken as the translated text. This matches the text written to it as long as no analysis holds a `\r`.
- LegacyAnalyzer.LegacyReadNewLogs: the legacy opens files with the locale encoding and strict errors, so undecodable bytes raise `UnicodeDecodeError` and end the program. The engine drops such bytes. The model's files hold decoded text, so this divergence is not represented, and the legacy reader also sees the translated text described for `SplitLines`.
- LegacyAnalyzer.LegacyReadAgreesWithEngine: the two readers agree only on files that both decode to the same characters. Strict locale decoding in the legacy and UTF-8 with `errors='ignore'` in the engine differ on any byte sequence that is undecodable, or decoded differently, under either codec.
- Severity.ExtractSeverityScore: `int()` raises `ValueError` on a digit string longer than Python's integer-string limit (4300 digits by default since 3.11). In the engine, `process_log_file` then raises after the report entry is saved: no alert is sent, and the position is kept as a failed task (the `failed` set). The model converts digit strings of any length and scores such a run 10.
- LegacyAnalyzer.CandidatesMembers: for a whitespace token of more than 4300 digits, `int()` raises `ValueError` in the legacy and the error ends the program. The model converts the token and, since its value is above 10, drops it.
- Printing and the console messages are left out. What `process_log_file` prints is kept as its `Decision`.
- `load_configuration` is left out apart from its `log_files` expression. That covers the search for `.env` and `config.ini`, ConfigParser, the environment variables and the `getint`/`getfloat` conversions, which are file and environment I/O. `print_configuration_summary` and `test_email_configuration` are left out as printing and network code.
- LogMonitor.InitializeDailyReport: directories are not part of the file-system map, so `os.makedirs` here and in `_archive_report` is left out. The one exit that does not depend on directories is modelled: a missing report path with an empty directory part, where `os.makedirs("")` raises. A report whose directory cannot be made, or whose file cannot be created for lack of permission, does not end the model as it ends the program.
- `send_email`'s `html` flag is left out because no caller sets it.
- `app.py` (environment loading only), `src/__init__.py` (re-exports) and `docs/ai-models.py` (no code) are not part of this model.
- Severity.ExtractSeverityScore: only ASCII digits are read. In a str pattern, `\d` matches every Unicode decimal digit (category Nd), and `int()` reads them, so `SEVERITY_SCORE: ٨` scores 8 in the engine but is no match in the model.
- LegacyAnalyzer.CandidatesMembers: a token is a candidate only when it is made of ASCII digits. Python's `str.isdigit()` is broader. First, it accepts other decimal digits (category Nd), which `int()` reads, so `٨` is a candidate 8 in the legacy and no candidate in the model. Second, it accepts digits that are not decimal, such as superscripts and circled digits (`10³`, `①`), which `int()` rejects. For such a token the comprehension raises `ValueError`, nothing catches it, and the legacy program ends, while the model drops the token and goes on.
- LegacyAnalyzer.LegacyCriticalIffHighToken: holds for analyses whose tokens are ASCII; with an `isdigit()`-only token such as `10³` in the analysis, the legacy raises before any alert decision.
- LegacyAnalyzer.LegacyHandleFile: `Survives` does not include the `ValueError` raised for an `isdigit()`-only token, so a file whose analysis holds one survives in the model and ends the program in the legacy.
- ConfigLoader.Config: `ai_temperature` is held as the exact fraction its finite float denotes, and the range check is done by cross-multiplication. NaN and infinities are left out.
- LegacyAnalyzer.LegacyCycle: a pass whose analyses hold an `isdigit()`-only token (see `CandidatesMembers`) completes in the model, whereas the legacy ends there.
- LegacyAnalyzer.LegacyCycle: a pass stopped by an escaping error carries no positions, because the exception ends the program. The legacy order of overwriting a position before analysing the batch is therefore visible only in completed passes.
- LegacyAnalyzer.Candidates: its own contract only bounds the list; which tokens become candidates is stated by `CandidatesMembers`.
- LogMonitor.ProcessLogFile: its own contract keeps only the position, the report-only change and the alert count; the entry and the alert contents are stated by `ProcessLogFileOutcome`. One `now` string stands for the time in both the report entry and the alert body, and one `now` serves every task of a cycle, whereas the source reads the clock separately for each (`datetime.now()` in `save_analysis_to_report` and again in `send_alert_email`). The two stamps of one batch can therefore differ in the program by the time the analysis takes to save and route; the model does not represent that difference.
- LegacyAnalyzer.LegacyHandleFile: its own contract keeps only survival and the position; the mail is stated by `LegacyHandleFileMail`.

=== FILE: common.dfy ===
/** Failure-carrying wrappers shared by the whole model. */
module Common {

  /** An optional value: a configuration key that is absent, or a search that found nothing. */
  datatype Option<+T> = None | Some(value: T)

  /** The outcome of a call that may raise: the value, or the exception's message. */
  datatype Result<+R, +E> = Success(value: R) | Failure(error: E)
}

=== FILE: config_loader.dfy ===
/**
  The configuration checks of src/config_loader.py: `validate_configuration`
  over a configuration whose entries may be absent, and the `log_files`
  expression that turns the comma-separated setting into a list of paths.
 */
module ConfigLoader {
  import opened Common
  import opened Text

  /** The required fields, in the order the validator checks them. */
  datatype Field = LogFiles | Sender | Receiver | SmtpServer | SmtpPort | ApiKey | SmtpPassword

  const RequiredFields: seq<Field> := [LogFiles, Sender, Receiver, SmtpServer, SmtpPort, ApiKey, SmtpPassword]

  /** The dictionary key of a field. */
  function FieldName(f: Field): string {
    match f
    case LogFiles => "log_files"
    case Sender => "email_sender"
    case Receiver => "email_receiver"
    case SmtpServer => "smtp_server"
    case SmtpPort => "smtp_port"
    case ApiKey => "ai_api_key"
    case SmtpPassword => "smtp_password"
  }

  /** The position of a field in the required list. */
  function FieldIndex(f: Field): (i: nat)
    ensures i < |RequiredFields| && RequiredFields[i] == f
  {
    match f
    case LogFiles => 0
    case Sender => 1
    case Receiver => 2
    case SmtpServer => 3
    case SmtpPort => 4
    case ApiKey => 5
    case SmtpPassword => 6
  }

  /** A positive denominator. */
  type Denominator = n: nat | n > 0 witness 1

  /** A finite float as the exact fraction `num / den` it denotes (every finite binary float is one). */
  datatype Fraction = Fraction(num: int, den: Denominator)

  /**
    The configuration dictionary the validator reads. `None` is a key that is
    absent or holds `None`; every other value is kept as it is, falsy ones included.
   */
  datatype Config = Config(
    logFiles: Option<seq<string>>,
    emailSender: Option<string>,
    emailReceiver: Option<string>,
    smtpServer: Option<string>,
    smtpPort: Option<int>,
    aiApiKey: Option<string>,
    smtpPassword: Option<string>,
    aiTemperature: Option<Fraction>,
    logCheckInterval: Option<int>)

  /** Python truthiness of `config.get(key)`: present, and not an empty list or string, not zero. */
  predicate Truthy(c: Config, f: Field) {
    match f
    case LogFiles => c.logFiles.Some? && |c.logFiles.value| > 0
    case Sender => c.emailSender.Some? && |c.emailSender.value| > 0
    case Receiver => c.emailReceiver.Some? && |c.emailReceiver.value| > 0
    case SmtpServer => c.smtpServer.Some? && |c.smtpServer.value| > 0
    case SmtpPort => c.smtpPort.Some? && c.smtpPort.value != 0
    case ApiKey => c.aiApiKey.Some? && |c.aiApiKey.value| > 0
    case SmtpPassword => c.smtpPassword.Some? && |c.smtpPassword.value| > 0
  }

  /** `'@' in address`. */
  predicate HasAt(address: string) {
    exists i | 0 <= i < |address| :: address[i] == '@'
  }

  predicate TemperatureTruthy(c: Config) {
    c.aiTemperature.Some? && c.aiTemperature.value.num != 0
  }

  /** `0 <= ai_temperature <= 2`, cross-multiplied by the positive denominator. */
  predicate TemperatureInRange(t: Fraction) {
    0 <= t.num <= 2 * t.den
  }

  predicate IntervalTruthy(c: Config) {
    c.logCheckInterval.Some? && c.logCheckInterval.value != 0
  }

  /** One validation failure. */
  datatype ConfigError =
    | Missing(field: Field)
    | SenderFormat
    | ReceiverFormat
    | PortRange
    | TemperatureRange
    | IntervalRange

  /** The text the validator appends for an error. */
  function ErrorMessage(e: ConfigError): string {
    match e
    case Missing(f) => MissingPrefix + FieldName(f)
    case SenderFormat => "Format email_sender invalide"
    case ReceiverFormat => "Format email_receiver invalide"
    case PortRange => "smtp_port doit être entre 1 et 65535"
    case TemperatureRange => "ai_temperature doit être entre 0 et 2"
    case IntervalRange => "log_check_interval doit être >= 1"
  }

  const MissingPrefix: string := "Champ requis manquant : "

  /** Where an error sits in the validator's fixed order: the required fields first, then the five value checks. */
  function Rank(e: ConfigError): nat {
    match e
    case Missing(f) => FieldIndex(f)
    case SenderFormat => 7
    case ReceiverFormat => 8
    case PortRange => 9
    case TemperatureRange => 10
    case IntervalRange => 11
  }

  /** The condition under which `validate_configuration` appends the error. */
  predicate Fails(c: Config, e: ConfigError) {
    match e
    case Missing(f) => !Truthy(c, f)
    case SenderFormat => Truthy(c, Sender) && !HasAt(c.emailSender.value)
    case ReceiverFormat => Truthy(c, Receiver) && !HasAt(c.emailReceiver.value)
    case PortRange => Truthy(c, SmtpPort) && !(1 <= c.smtpPort.value <= 65535)
    case TemperatureRange => TemperatureTruthy(c) && !TemperatureInRange(c.aiTemperature.value)
    case IntervalRange => IntervalTruthy(c) && c.logCheckInterval.value < 1
  }

  /** What one check appends: its error when it fails, nothing otherwise. */
  function When(fails: bool, e: ConfigError): seq<ConfigError> {
    if fails then [e] else []
  }

  /**
    The check run in position `k`: the loop over the required fields first,
    then the sender, receiver, port, temperature and interval checks.
   */
  function CheckAt(k: nat): (e: ConfigError)
    requires k < 12
    ensures Rank(e) == k
  {
    if k < 7 then Missing(RequiredFields[k])
    else if k == 7 then SenderFormat
    else if k == 8 then ReceiverFormat
    else if k == 9 then PortRange
    else if k == 10 then TemperatureRange
    else IntervalRange
  }

  /** Running the checks from position `k` on, each appending its error when it fails. */
  function ChecksFrom(c: Config, k: nat): seq<ConfigError>
    decreases 12 - k
  {
    if k >= 12 then []
    else When(Fails(c, CheckAt(k)), CheckAt(k)) + ChecksFrom(c, k + 1)
  }

  /** The errors `validate_configuration` collects, in the order it appends them. */
  function ConfigErrors(c: Config): seq<ConfigError> {
    ChecksFrom(c, 0)
  }

  /**
    `validate_configuration(config)`: the error messages in order, and a
    verdict that is true exactly when there are none.
   */
  function ValidateConfiguration(c: Config): (r: (bool, seq<string>))
    ensures r.0 <==> |r.1| == 0
    ensures |r.1| == |ConfigErrors(c)|
    ensures forall i :: 0 <= i < |r.1| ==> r.1[i] == ErrorMessage(ConfigErrors(c)[i])
  {
    var errs := ConfigErrors(c);
    var messages := seq(|errs|, i requires 0 <= i < |errs| => ErrorMessage(errs[i]));
    (|messages| == 0, messages)
  }

  /** The checks from position `k` on report exactly the failing ones of rank `k` or more. */
  lemma {:induction false} ChecksFromMembers(c: Config, k: nat)
    ensures forall e :: e in ChecksFrom(c, k) <==> k <= Rank(e) && Fails(c, e)
    decreases 12 - k
  {
    if k < 12 {
      ChecksFromMembers(c, k + 1);
      forall e | Rank(e) == k ensures e == CheckAt(k) {
        RankDetermines(e, CheckAt(k));
      }
    } else {
      forall e ensures Rank(e) < k { }
    }
  }

  /** No two errors share a rank. */
  lemma RankDetermines(e1: ConfigError, e2: ConfigError)
    requires Rank(e1) == Rank(e2)
    ensures e1 == e2
  {
    if e1.Missing? && e2.Missing? {
      assert RequiredFields[FieldIndex(e1.field)] == e1.field;
      assert RequiredFields[FieldIndex(e2.field)] == e2.field;
    }
  }

  /** Each error of the list ranks strictly below the next. */
  predicate InCheckOrder(errs: seq<ConfigError>) {
    forall i, j :: 0 <= i < j < |errs| ==> Rank(errs[i]) < Rank(errs[j])
  }

  /** The checks from position `k` on report their errors in rank order. */
  lemma {:induction false} ChecksFromOrder(c: Config, k: nat)
    ensures InCheckOrder(ChecksFrom(c, k))
    decreases 12 - k
  {
    if k < 12 {
      ChecksFromOrder(c, k + 1);
      ChecksFromMembers(c, k + 1);
      var e := CheckAt(k);
      PrependInOrder(When(Fails(c, e), e), ChecksFrom(c, k + 1), k);
    }
  }

  /** A check's error, of rank `k`, put before errors of higher rank in check order, keeps check order. */
  lemma PrependInOrder(head: seq<ConfigError>, rest: seq<ConfigError>, k: nat)
    requires |head| <= 1 && forall x :: x in head ==> Rank(x) == k
    requires InCheckOrder(rest) && forall x :: x in rest ==> k < Rank(x)
    ensures InCheckOrder(head + rest)
  {
    var all := head + rest;
    forall i, j | 0 <= i < j < |all| ensures Rank(all[i]) < Rank(all[j]) {
      assert all[j] == rest[j - |head|];
      if i < |head| {
        assert all[i] == head[i];
      } else {
        assert all[i] == rest[i - |head|];
      }
    }
  }

  /** An error is returned exactly when its check fails. */
  lemma ReportedIffFails(c: Config, e: ConfigError)
    ensures e in ConfigErrors(c) <==> Fails(c, e)
  {
    ChecksFromMembers(c, 0);
  }

  /**
    The errors come in the validator's order, each at most once: required
    fields in list order, then sender, receiver, port, temperature, interval.
   */
  lemma ErrorsInCheckOrder(c: Config)
    ensures InCheckOrder(ConfigErrors(c))
  {
    ChecksFromOrder(c, 0);
  }

  /** One required-field error for each required field that is absent or falsy, and for no other. */
  lemma RequiredFieldErrors(c: Config)
    ensures forall f :: Missing(f) in ConfigErrors(c) <==> !Truthy(c, f)
  {
    forall f ensures Missing(f) in ConfigErrors(c) <==> !Truthy(c, f) {
      ReportedIffFails(c, Missing(f));
    }
  }

  /**
    The value checks: a format error for a truthy sender or receiver without
    `@`; a range error for a truthy port outside 1..65535, a truthy temperature
    outside [0, 2], a truthy interval below 1. An absent address or a zero port,
    temperature or interval is falsy and so is never checked.
   */
  lemma ValueCheckErrors(c: Config)
    ensures var errs := ConfigErrors(c);
            && (SenderFormat in errs <==> Truthy(c, Sender) && !HasAt(c.emailSender.value))
            && (ReceiverFormat in errs <==> Truthy(c, Receiver) && !HasAt(c.emailReceiver.value))
            && (PortRange in errs <==> Truthy(c, SmtpPort) && !(1 <= c.smtpPort.value <= 65535))
            && (TemperatureRange in errs <==> TemperatureTruthy(c) && !TemperatureInRange(c.aiTemperature.value))
            && (IntervalRange in errs <==> IntervalTruthy(c) && c.logCheckInterval.value < 1)
  {
    ReportedIffFails(c, SenderFormat);
    ReportedIffFails(c, ReceiverFormat);
    ReportedIffFails(c, PortRange);
    ReportedIffFails(c, TemperatureRange);
    ReportedIffFails(c, IntervalRange);
  }

  /** Distinct errors have distinct messages, so each error appears at most once in the returned list. */
  lemma ErrorMessageInjective(e1: ConfigError, e2: ConfigError)
    ensures e1 != e2 ==> ErrorMessage(e1) != ErrorMessage(e2)
  {
    if e1 != e2 {
      if e1.Missing? && e2.Missing? {
        MissingMessagesDiffer(e1.field, e2.field);
      } else if e1.Missing? || e2.Missing? {
        MessageHead(e1);
        MessageHead(e2);
      } else {
        ValueMessageLength(e1);
        ValueMessageLength(e2);
      }
    }
  }

  lemma MissingMessagesDiffer(f: Field, g: Field)
    ensures f != g ==> ErrorMessage(Missing(f)) != ErrorMessage(Missing(g))
  {
    if f != g {
      FieldNameInjective(f, g);
      var n := |MissingPrefix|;
      assert ErrorMessage(Missing(f))[n..] == FieldName(f);
      assert ErrorMessage(Missing(g))[n..] == FieldName(g);
    }
  }

  /** Only the missing-field messages start with `C`. */
  lemma MessageHead(e: ConfigError)
    ensures |ErrorMessage(e)| > 0 && (ErrorMessage(e)[0] == 'C' <==> e.Missing?)
  {
  }

  /** The five value-check messages have five different lengths. */
  lemma ValueMessageLength(e: ConfigError)
    requires !e.Missing?
    ensures e.SenderFormat? ==> |ErrorMessage(e)| == 28
    ensures e.ReceiverFormat? ==> |ErrorMessage(e)| == 30
    ensures e.PortRange? ==> |ErrorMessage(e)| == 36
    ensures e.TemperatureRange? ==> |ErrorMessage(e)| == 37
    ensures e.IntervalRange? ==> |ErrorMessage(e)| == 33
  {
  }

  lemma FieldNameInjective(f: Field, g: Field)
    ensures f != g ==> FieldName(f) != FieldName(g)
  {
    if f != g {
      var m := FieldName(f);
      var n := FieldName(g);
      assert |m| != |n| || m[0] != n[0];
    }
  }

  /** Two lists in check order with the same members are the same list. */
  lemma {:induction false} SameMembersSameList(a: seq<ConfigError>, b: seq<ConfigError>)
    requires forall x :: x in a <==> x in b
    requires InCheckOrder(a) && InCheckOrder(b)
    ensures a == b
    decreases |a| + |b|
  {
    assert |a| == 0 || a[0] in b;
    assert |b| == 0 || b[0] in a;
    if |a| > 0 && |b| > 0 {
      var i :| 0 <= i < |b| && b[i] == a[0];
      var j :| 0 <= j < |a| && a[j] == b[0];
      assert Rank(b[0]) <= Rank(b[i]);
      assert Rank(a[0]) <= Rank(a[j]);
      RankDetermines(a[0], b[0]);
      forall x ensures x in a[1..] <==> x in b[1..] {
        FirstSmallest(a, x);
        FirstSmallest(b, x);
      }
      SameMembersSameList(a[1..], b[1..]);
      assert a == [a[0]] + a[1..] && b == [b[0]] + b[1..];
    }
  }

  /** In a list in check order, the first element is not repeated later. */
  lemma FirstSmallest(s: seq<ConfigError>, x: ConfigError)
    requires |s| > 0 && InCheckOrder(s)
    ensures x in s[1..] <==> x in s && x != s[0]
  {
    if x in s[1..] {
      var k :| 0 <= k < |s[1..]| && s[1..][k] == x;
      assert Rank(s[0]) < Rank(s[k + 1]);
    }
    if x in s && x != s[0] {
      var k :| 0 <= k < |s| && s[k] == x;
      assert s[1..][k - 1] == x;
    }
  }

  /** The errors of `c` are `expected` when `expected` is in check order and lists exactly the failing checks. */
  lemma ExactlyTheseErrors(c: Config, expected: seq<ConfigError>)
    requires InCheckOrder(expected)
    requires forall e :: e in expected <==> Fails(c, e)
    ensures ConfigErrors(c) == expected
  {
    ChecksFromMembers(c, 0);
    ErrorsInCheckOrder(c);
    SameMembersSameList(ConfigErrors(c), expected);
  }

  const SampleSender: string := "test@example.com"
  const SampleReceiver: string := "receiver@example.com"
  const SampleConfig: Config :=
    Config(Some(["/var/log/test.log"]), Some(SampleSender), Some(SampleReceiver), Some("smtp.example.com"),
           Some(587), Some("test_key"), Some("test_pass"), Some(Fraction(1, 2)), Some(300))

  /** The test sample: a complete, well-formed configuration validates with no error. */
  lemma SampleConfigIsValid()
    ensures ValidateConfiguration(SampleConfig) == (true, [])
  {
    assert SampleSender[4] == '@' && SampleReceiver[8] == '@';
    ExactlyTheseErrors(SampleConfig, []);
  }

  /** A sender without `@` makes the configuration invalid with exactly the sender-format error. */
  lemma SenderWithoutAtIsReported()
    ensures var c := Config(Some(["/var/log/test.log"]), Some("invalid_email"), Some(SampleReceiver), Some("smtp.example.com"),
                            Some(587), Some("test_key"), Some("test_pass"), None, None);
            var r := ValidateConfiguration(c);
            !r.0 && r.1 == [ErrorMessage(SenderFormat)]
  {
    var c := Config(Some(["/var/log/test.log"]), Some("invalid_email"), Some(SampleReceiver), Some("smtp.example.com"),
                    Some(587), Some("test_key"), Some("test_pass"), None, None);
    assert SampleReceiver[8] == '@';
    assert !HasAt("invalid_email");
    ExactlyTheseErrors(c, [SenderFormat]);
  }

  /** Port 99999 is outside 1..65535: the only error is the port range. */
  lemma PortOutOfRangeIsReported()
    ensures var c := Config(Some(["/var/log/test.log"]), Some(SampleSender), Some(SampleReceiver), Some("smtp.example.com"),
                            Some(99999), Some("test_key"), Some("test_pass"), None, None);
            var r := ValidateConfiguration(c);
            !r.0 && r.1 == [ErrorMessage(PortRange)]
  {
    var c := Config(Some(["/var/log/test.log"]), Some(SampleSender), Some(SampleReceiver), Some("smtp.example.com"),
                    Some(99999), Some("test_key"), Some("test_pass"), None, None);
    assert SampleSender[4] == '@' && SampleReceiver[8] == '@';
    ExactlyTheseErrors(c, [PortRange]);
  }

  /** The test with only four entries: the receiver, the key and the password are each reported missing, in that order. */
  lemma MissingFieldsAreReportedInOrder()
    ensures var r := ValidateConfiguration(FourEntries);
            !r.0 && r.1 == [ErrorMessage(Missing(Receiver)), ErrorMessage(Missing(ApiKey)), ErrorMessage(Missing(SmtpPassword))]
  {
    FourEntriesErrors();
  }

  const FourEntries: Config :=
    Config(Some(["/var/log/test.log"]), Some(SampleSender), None, Some("smtp.example.com"), Some(587), None, None, None, None)

  lemma FourEntriesErrors()
    ensures ConfigErrors(FourEntries) == [Missing(Receiver), Missing(ApiKey), Missing(SmtpPassword)]
  {
    var c := FourEntries;
    assert SampleSender[4] == '@';
    var expected := [Missing(Receiver), Missing(ApiKey), Missing(SmtpPassword)];
    forall e ensures e in expected <==> Fails(c, e) {
      if e.Missing? {
        match e.field
        case LogFiles =>
        case Sender =>
        case Receiver =>
        case SmtpServer =>
        case SmtpPort =>
        case ApiKey =>
        case SmtpPassword =>
      }
    }
    ExactlyTheseErrors(c, expected);
  }

  /** Zero is falsy: a zero port is only reported missing, a zero interval or temperature not at all. */
  lemma ZeroSkipsRangeChecks(c: Config)
    requires c.smtpPort == Some(0) && c.logCheckInterval == Some(0)
    requires c.aiTemperature.Some? && c.aiTemperature.value.num == 0
    ensures Missing(SmtpPort) in ConfigErrors(c)
    ensures PortRange !in ConfigErrors(c) && IntervalRange !in ConfigErrors(c) && TemperatureRange !in ConfigErrors(c)
  {
    ReportedIffFails(c, Missing(SmtpPort));
    ReportedIffFails(c, PortRange);
    ReportedIffFails(c, IntervalRange);
    ReportedIffFails(c, TemperatureRange);
  }

  /** An absent sender or receiver gets its required-field error and never a format error as well. */
  lemma AbsentAddressHasNoFormatError(c: Config)
    requires c.emailSender.None? || c.emailReceiver.None?
    ensures c.emailSender.None? ==> Missing(Sender) in ConfigErrors(c) && SenderFormat !in ConfigErrors(c)
    ensures c.emailReceiver.None? ==> Missing(Receiver) in ConfigErrors(c) && ReceiverFormat !in ConfigErrors(c)
  {
    ReportedIffFails(c, Missing(Sender));
    ReportedIffFails(c, SenderFormat);
    ReportedIffFails(c, Missing(Receiver));
    ReportedIffFails(c, ReceiverFormat);
  }

  /**
    The `log_files` setting: split on every comma, each piece stripped. There
    are as many paths as commas plus one, none holds a comma or surrounding
    whitespace, and an empty setting gives one empty path.
   */
  function ParseLogFiles(raw: string): (paths: seq<string>)
    ensures |paths| == CountChar(raw, ',') + 1
    ensures forall i :: 0 <= i < |paths| ==> ',' !in paths[i]
    ensures forall i :: 0 <= i < |paths| ==> |paths[i]| == 0 || (!IsSpace(paths[i][0]) && !IsSpace(paths[i][|paths[i]| - 1]))
    ensures forall i :: 0 <= i < |paths| ==> paths[i] == Strip(SplitOn(raw, ',')[i])
  {
    var parts := SplitOn(raw, ',');
    seq(|parts|, i requires 0 <= i < |parts| => StripPiece(parts[i], ','))
  }

  lemma AbsentFromSlice(s: string, i: nat, j: nat, c: char)
    requires i <= j <= |s| && c !in s
    ensures c !in s[i..j]
  {
    assert forall k :: 0 <= k < j - i ==> s[i..j][k] == s[i + k];
  }

  /** Stripping a piece keeps it free of the separator and leaves no whitespace at either end. */
  function StripPiece(piece: string, sep: char): (r: string)
    requires sep !in piece
    ensures sep !in r
    ensures |r| == 0 || (!IsSpace(r[0]) && !IsSpace(r[|r| - 1]))
    ensures r == Strip(piece)
  {
    var t := TrimStart(piece);
    var r := TrimEnd(t);
    AbsentFromSlice(piece, |piece| - |t|, |piece|, sep);
    AbsentFromSlice(t, 0, |r|, sep);
    r
  }

  /**
    The inverse: pieces without commas, written comma-separated, parse back to
    exactly those pieces, each stripped of surrounding whitespace.
   */
  lemma ParseLogFilesOfJoin(pieces: seq<string>)
    requires |pieces| > 0
    requires forall i :: 0 <= i < |pieces| ==> ',' !in pieces[i]
    ensures ParseLogFiles(JoinWith(pieces, ',')) == seq(|pieces|, i requires 0 <= i < |pieces| => Strip(pieces[i]))
  {
    SplitOnJoinWith(pieces, ',');
  }

  /** The usual spaced list: `"a.log, b.log"` names `a.log` and `b.log`. */
  lemma SpacedPairParses(a: string, b: string)
    requires |a| > 0 && NoSpace(a) && ',' !in a
    requires |b| > 0 && NoSpace(b) && ',' !in b
    ensures ParseLogFiles(a + ", " + b) == [a, b]
  {
    var pieces := [a, " " + b];
    JoinPair(a, b);
    ParseLogFilesOfJoin(pieces);
    StripOfWord(a);
    StripOfSpacedWord(b);
    var r := ParseLogFiles(a + ", " + b);
    assert r[0] == a && r[1] == b;
  }

  lemma JoinPair(a: string, b: string)
    requires ',' !in a && ',' !in b
    ensures ',' !in " " + b
    ensures a + ", " + b == JoinWith([a, " " + b], ',')
  {
    var pieces := [a, " " + b];
    assert JoinWith(pieces[1..], ',') == " " + b;
    assert a + ", " + b == a + [','] + (" " + b);
    assert forall k :: 1 <= k < |pieces[1]| ==> pieces[1][k] == b[k - 1];
  }

  lemma StripOfSpacedWord(b: string)
    requires |b| > 0 && NoSpace(b)
    ensures Strip(" " + b) == b
  {
    TrimStartAfterBlank(" ", b);
    StripOfWord(b);
  }

  /** A non-empty word without whitespace is its own strip. */
  lemma StripOfWord(w: string)
    requires |w| > 0 && NoSpace(w)
    ensures Strip(w) == w && TrimStart(w) == w
  {
    assert !IsSpace(w[0]) && !IsSpace(w[|w| - 1]);
  }

  /** An empty setting is one empty path, a truthy list: the validator does not report it missing. */
  lemma EmptySettingIsOneEmptyPath()
    ensures ParseLogFiles("") == [""]
  {
    assert SplitOn("", ',') == [""];
  }
}

=== FILE: email_sender.dfy ===
/**
  Outbound mail (src/email_sender.py): the raise-or-succeed contract of
  `send_email`, the immediate alert, and the daily digest flush with its
  archive copy and reset marker. The SMTP session is the `Transport` function.
 */
module EmailSender {
  import opened Common
  import opened Text
  import opened Paths
  import opened Host

  /** `EmailSenderError`: the one exception `send_email` lets out. */
  datatype EmailSenderError = EmailSenderError(message: string)

  /**
    `send_email(subject, body, config)`: returns True when the session
    delivers, and otherwise raises `EmailSenderError` whose message depends on
    the failure kind. It never returns False.
   */
  function SendEmail(msg: Message, transport: Transport): (r: Result<bool, EmailSenderError>)
    ensures r.Success? <==> transport(msg) == Delivered
    ensures r.Success? ==> r.value
    ensures transport(msg) == AuthRejected ==> r == Failure(EmailSenderError(AuthErrorMessage))
  {
    match transport(msg)
    case Delivered => Success(true)
    case AuthRejected => Failure(EmailSenderError(AuthErrorMessage))
    case SmtpFailed(detail) => Failure(EmailSenderError("Erreur SMTP : " + detail))
    case OtherFailed(detail) => Failure(EmailSenderError("Erreur lors de l'envoi de l'email : " + detail))
  }

  const AuthErrorMessage: string := "Erreur d'authentification SMTP - Vérifiez vos identifiants"

  const WarningEmoji: string := "⚠️"
  const AnomalyEmoji: string := "🔶"
  const CriticalEmoji: string := "🚨"

  /** The subject's emoji: the first of the ranges 1..3, 4..6, 7..10 that holds the score, else the critical one. */
  function SeverityEmoji(score: int): string {
    if 1 <= score < 4 then WarningEmoji
    else if 4 <= score < 7 then AnomalyEmoji
    else CriticalEmoji
  }

  /** The emoji bands: 1-3 warning, 4-6 anomaly, 7-10 critical, and critical for any score outside 1..10. */
  lemma EmojiBands(score: int)
    ensures SeverityEmoji(score) == WarningEmoji <==> 1 <= score <= 3
    ensures SeverityEmoji(score) == AnomalyEmoji <==> 4 <= score <= 6
    ensures SeverityEmoji(score) == CriticalEmoji <==> score < 1 || score > 6
  {
    assert WarningEmoji[0] != AnomalyEmoji[0] && WarningEmoji[0] != CriticalEmoji[0];
    assert AnomalyEmoji[0] != CriticalEmoji[0];
  }

  const AlertSubjectMiddle: string := " Alerte Log - Anomalie critique dans "

  /** The alert subject: emoji, the log file's base name, and the score. */
  function AlertSubject(logFile: string, score: int): string {
    SeverityEmoji(score) + AlertSubjectMiddle + Basename(logFile) + " (Score: " + IntToString(score) + ")"
  }

  /**
    The subject names the log file by its base name, never by its directory
    (it holds no `/`), and ends with `(Score: n)` where `n` reads back as the score.
   */
  lemma AlertSubjectNamesFileAndScore(logFile: string, score: nat)
    ensures var subject := AlertSubject(logFile, score);
            && Contains(subject, Basename(logFile))
            && '/' !in subject
            && var n := IntToString(score);
               |subject| >= |n| + 10
               && subject[|subject| - |n| - 10..] == " (Score: " + n + ")"
               && subject[|subject| - |n| - 1..|subject| - 1] == n
               && DecimalValue(n) == score
  {
    var e := SeverityEmoji(score);
    var b := Basename(logFile);
    var n := IntToString(score);
    assert AlertSubject(logFile, score) == e + AlertSubjectMiddle + b + " (Score: " + n + ")";
    NoSlashInSubjectText(score);
    FivePartSubject(e + AlertSubjectMiddle, b, " (Score: ", n, ")");
    AlertSubjectEndsWithScore(logFile, score);
  }

  /** The subject closes with ` (Score: n)`, `n` being the score's decimal text. */
  lemma AlertSubjectEndsWithScore(logFile: string, score: int)
    ensures var subject := AlertSubject(logFile, score);
            var n := IntToString(score);
            |subject| >= |n| + 10 && subject[|subject| - |n| - 10..] == " (Score: " + n + ")"
  {
    var head := SeverityEmoji(score) + AlertSubjectMiddle + Basename(logFile);
    var suffix := " (Score: " + IntToString(score) + ")";
    assert |" (Score: "| == 9;
    assert AlertSubject(logFile, score) == head + suffix;
  }

  /** The fixed text of an alert subject, its emoji and its score hold no `/`. */
  lemma NoSlashInSubjectText(score: nat)
    ensures '/' !in SeverityEmoji(score) + AlertSubjectMiddle
    ensures '/' !in " (Score: " && '/' !in ")" && '/' !in IntToString(score)
  {
    NoSlashInEmoji(score);
    NoSlashInMiddle();
    NoSlashInNumber(IntToString(score));
    NoSlashInEither(SeverityEmoji(score), AlertSubjectMiddle);
  }

  lemma NoSlashInEmoji(score: int)
    ensures '/' !in SeverityEmoji(score)
  {
  }

  lemma NoSlashInMiddle()
    ensures '/' !in AlertSubjectMiddle && '/' !in " (Score: " && '/' !in ")"
  {
  }

  lemma NoSlashInNumber(n: string)
    requires IsDecimal(n)
    ensures '/' !in n
  {
    assert forall k :: 0 <= k < |n| ==> IsDigit(n[k]);
  }

  lemma NoSlashInEither(a: string, b: string)
    requires '/' !in a && '/' !in b
    ensures '/' !in a + b
  {
    assert multiset(a + b) == multiset(a) + multiset(b);
  }

  lemma FivePartSubject(head: string, name: string, tag: string, n: string, tail: string)
    requires |tag| > 0 && |tail| == 1 && |n| > 0
    ensures var s := head + name + tag + n + tail;
            && OccursAt(s, name, |head|)
            && Contains(s, name)
            && s[|s| - |n| - 1..|s| - 1] == n
            && |s| >= |tag| + |n| + |tail|
            && s[|s| - |tag| - |n| - |tail|..] == tag + n + tail
            && ('/' !in head && '/' !in name && '/' !in tag && '/' !in n && '/' !in tail ==> '/' !in s)
  {
    var s := head + name + tag + n + tail;
    assert s[|head|..|head| + |name|] == name;
    assert OccursAt(s, name, |head|);
    assert s[|s| - |n| - 1..|s| - 1] == n;
    assert s[|s| - |tag| - |n| - |tail|..] == tag + n + tail;
    assert multiset(s) == multiset(head) + multiset(name) + multiset(tag) + multiset(n) + multiset(tail);
  }

  /** A line of sixty `=`. */
  function Rule(): string {
    seq(60, _ => '=')
  }

  /** The alert body: file, score out of 10 and time, then the full analysis, then a fixed footer. */
  function AlertBody(logFile: string, analysis: string, score: int, now: string): string {
    AlertBodyHead(logFile, score, now) + analysis + AlertBodyFoot()
  }

  function AlertBodyHead(logFile: string, score: int, now: string): string {
    "\nAlerte de sécurité - Log Analyzer\n" + Rule() + "\n\n"
    + "Fichier concerné : " + logFile + "\n"
    + "Score de gravité : " + IntToString(score) + "/10\n"
    + "Date et heure : " + now + "\n\n"
    + Rule() + "\nANALYSE DE L'ANOMALIE\n" + Rule() + "\n\n"
  }

  function AlertBodyFoot(): string {
    "\n\n" + Rule() + "\n\n"
    + "Cet email a été généré automatiquement par Log Analyzer.\n"
    + "Pour plus d'informations, consultez le rapport quotidien.\n"
  }

  function AlertMessage(logFile: string, analysis: string, score: int, now: string): Message {
    Message(AlertSubject(logFile, score), AlertBody(logFile, analysis, score, now))
  }

  /** The alert carries the whole analysis in its body. */
  lemma AlertCarriesAnalysis(logFile: string, analysis: string, score: int, now: string)
    ensures Contains(AlertMessage(logFile, analysis, score, now).body, analysis)
  {
    var head := AlertBodyHead(logFile, score, now);
    var body := AlertBody(logFile, analysis, score, now);
    assert body[|head|..|head| + |analysis|] == analysis;
    assert OccursAt(body, analysis, |head|);
  }

  /**
    `send_alert_email`: True exactly when the alert is delivered; a failed
    delivery becomes False instead of an exception.
   */
  function SendAlertEmail(logFile: string, analysis: string, score: int, now: string, transport: Transport): (ok: bool)
    ensures ok <==> transport(AlertMessage(logFile, analysis, score, now)) == Delivered
  {
    match SendEmail(AlertMessage(logFile, analysis, score, now), transport)
    case Success(sent) => sent
    case Failure(_) => false
  }

  /** The first line of a fresh daily report; a report holding only this has nothing to send. */
  const ReportMarker: string := "📊 Rapport quotidien des logs"

  /** What `_reset_daily_report` writes. */
  const ResetContent: string := ReportMarker + "\n"

  function DailyReportSubject(date: string): string {
    ReportMarker + " - " + date
  }

  /** `<dirname(report)>/archives/rapport_<date>.txt`, joined the way `os.path.join` does. */
  function ArchivePath(reportFile: string, date: string): string {
    Join(Join(Dirname(reportFile), "archives"), "rapport_" + date + ".txt")
  }

  /** The archive sits in the `archives` directory next to the report, under a name made from the date. */
  lemma ArchiveLocation(reportFile: string, date: string)
    requires '/' !in date
    ensures Dirname(ArchivePath(reportFile, date)) == Join(Dirname(reportFile), "archives")
    ensures Basename(ArchivePath(reportFile, date)) == "rapport_" + date + ".txt"
  {
    var dir := Join(Dirname(reportFile), "archives");
    var d := Dirname(reportFile);
    if |d| == 0 || d[|d| - 1] == '/' {
      assert dir == d + "archives";
    } else {
      assert dir == d + "/" + "archives";
    }
    assert dir[|dir| - 1] == 's';
    var name := "rapport_" + date + ".txt";
    assert '/' !in "rapport_" && '/' !in ".txt";
    assert '/' !in name;
    JoinThenSplit(dir, name);
  }

  /** `_archive_report`: writes the content to the archive path, which overwrites an archive of the same day. */
  function ArchiveReport(fs: FileSystem, reportFile: string, date: string, content: string): FileSystem {
    WriteFile(fs, ArchivePath(reportFile, date), content)
  }

  /** `_reset_daily_report`: the report becomes the marker line. */
  function ResetDailyReport(fs: FileSystem, reportFile: string): FileSystem {
    WriteFile(fs, reportFile, ResetContent)
  }

  /** The report is blank or holds only the marker line. */
  predicate NothingToReport(content: string) {
    Strip(content) == "" || Strip(content) == ReportMarker
  }

  /** What one daily flush leaves behind: the file system, the return value, and the messages handed to the transport. */
  datatype Flush = Flush(fs: FileSystem, ok: bool, sent: seq<Message>)

  /**
    `send_daily_report(config)`. No report file: True, nothing else. A report
    that cannot be read: False, nothing else. Blank or marker-only: no
    mail, the report reset, True. Otherwise exactly one mail carrying the
    whole report; when it is delivered the report is archived and reset and
    the result is True; when it is not, nothing changes and the result is False.
    The reset swallows its own permission error, so a report that can be read
    but not written keeps its content while the flush still returns True.
   */
  function SendDailyReport(fs: FileSystem, reportFile: string, date: string, transport: Transport): (f: Flush)
    ensures !Exists(fs, reportFile) ==> f == Flush(fs, true, [])
    ensures Exists(fs, reportFile) && !fs[reportFile].Present? ==> f == Flush(fs, false, [])
    ensures Exists(fs, reportFile) && fs[reportFile].Present? && NothingToReport(fs[reportFile].content) ==>
              f == Flush(if fs[reportFile].writable then fs[reportFile := Present(ResetContent, true)] else fs, true, [])
    ensures Exists(fs, reportFile) && fs[reportFile].Present? && !NothingToReport(fs[reportFile].content) ==>
              var content := fs[reportFile].content;
              var msg := Message(DailyReportSubject(date), content);
              var archive := ArchivePath(reportFile, date);
              && f.sent == [msg]
              && (f.ok <==> transport(msg) == Delivered)
              && (!f.ok ==> f.fs == fs)
              && (f.ok && fs[reportFile].writable ==> reportFile in f.fs && f.fs[reportFile] == Present(ResetContent, true))
              && (f.ok && !fs[reportFile].writable ==> reportFile in f.fs && f.fs[reportFile] == fs[reportFile])
              && (f.ok && archive != reportFile && Writable(fs, archive) ==>
                    archive in f.fs && f.fs[archive] == Present(content, true))
              && (forall p :: p != reportFile && p != archive ==> (p in f.fs <==> p in fs))
              && (forall p :: p != reportFile && p != archive && p in fs ==> f.fs[p] == fs[p])
  {
    if !Exists(fs, reportFile) then Flush(fs, true, [])
    else if !fs[reportFile].Present? then Flush(fs, false, [])
    else
      var content := fs[reportFile].content;
      if NothingToReport(content) then Flush(ResetDailyReport(fs, reportFile), true, [])
      else
        var msg := Message(DailyReportSubject(date), content);
        match SendEmail(msg, transport)
        case Failure(_) => Flush(fs, false, [msg])
        case Success(success) =>
          if success then Flush(ResetDailyReport(ArchiveReport(fs, reportFile, date, content), reportFile), true, [msg])
          else Flush(fs, false, [msg])
  }

  /** The reset content is marker-only, so it has nothing to report. */
  lemma ResetContentIsEmptyReport()
    ensures Strip(ResetContent) == ReportMarker
    ensures NothingToReport(ResetContent)
  {
    assert !IsSpace(ResetContent[0]);
    assert TrimStart(ResetContent) == ResetContent;
    assert ResetContent[..|ResetContent| - 1] == ReportMarker;
    assert TrimEnd(ResetContent) == TrimEnd(ReportMarker);
    assert !IsSpace(ReportMarker[|ReportMarker| - 1]);
  }

  /**
    A report with nothing to send: the flush succeeds without a mail, and the
    report is reset when it is writable and left as it is otherwise.
   */
  lemma FlushOfNothingToReport(fs: FileSystem, reportFile: string, date: string, transport: Transport)
    requires reportFile in fs && fs[reportFile].Present? && NothingToReport(fs[reportFile].content)
    ensures fs[reportFile].writable ==>
              SendDailyReport(fs, reportFile, date, transport) == Flush(fs[reportFile := Present(ResetContent, true)], true, [])
    ensures !fs[reportFile].writable ==> SendDailyReport(fs, reportFile, date, transport) == Flush(fs, true, [])
  {
  }

  /** A report holding just the marker line: the flush succeeds, sends nothing and changes nothing. */
  lemma FlushOfMarkerOnly(fs: FileSystem, reportFile: string, date: string, transport: Transport)
    requires reportFile in fs && fs[reportFile].Present? && fs[reportFile].content == ResetContent
    ensures SendDailyReport(fs, reportFile, date, transport) == Flush(fs, true, [])
  {
    MarkerOnlyHasNothing(fs, reportFile);
    FlushOfNothingToReport(fs, reportFile, date, transport);
    if fs[reportFile].writable {
      assert fs[reportFile := Present(ResetContent, true)] == fs;
    }
  }

  lemma MarkerOnlyHasNothing(fs: FileSystem, reportFile: string)
    requires reportFile in fs && fs[reportFile].Present? && fs[reportFile].content == ResetContent
    ensures NothingToReport(fs[reportFile].content)
  {
    ResetContentIsEmptyReport();
  }

  /**
    Idempotence: right after a reset of a report that can be written, a flush
    sends nothing, returns True, and leaves the file system as it was. (A reset
    of anything else changes nothing; see `ReadOnlyDigestIsSentAgain`.)
   */
  lemma FlushAfterResetSendsNothing(fs: FileSystem, reportFile: string, date: string, transport: Transport)
    requires Writable(fs, reportFile)
    ensures var fs1 := ResetDailyReport(fs, reportFile);
            SendDailyReport(fs1, reportFile, date, transport) == Flush(fs1, true, [])
  {
    var fs1 := ResetDailyReport(fs, reportFile);
    assert fs1 == fs[reportFile := Present(ResetContent, true)];
    FlushOfMarkerOnly(fs1, reportFile, date, transport);
  }

  /** After a successful flush of a writable report, the next flush sends nothing. */
  lemma SecondFlushSendsNothing(fs: FileSystem, reportFile: string, date: string, transport: Transport)
    requires Exists(fs, reportFile) && fs[reportFile].Present? && fs[reportFile].writable
    requires SendDailyReport(fs, reportFile, date, transport).ok
    ensures var f1 := SendDailyReport(fs, reportFile, date, transport);
            SendDailyReport(f1.fs, reportFile, date, transport).sent == []
  {
    var f1 := SendDailyReport(fs, reportFile, date, transport);
    assert reportFile in f1.fs && f1.fs[reportFile] == Present(ResetContent, true);
    FlushOfMarkerOnly(f1.fs, reportFile, date, transport);
  }

  /**
    A report that can be read but not written survives its own flush: the
    reset's permission error is swallowed and True is returned, so the next
    flush sends the same digest again.
   */
  lemma ReadOnlyDigestIsSentAgain(fs: FileSystem, reportFile: string, date: string, transport: Transport)
    requires Exists(fs, reportFile) && fs[reportFile].Present? && !fs[reportFile].writable
    requires SendDailyReport(fs, reportFile, date, transport).ok
    ensures var f1 := SendDailyReport(fs, reportFile, date, transport);
            && reportFile in f1.fs && f1.fs[reportFile] == fs[reportFile]
            && SendDailyReport(f1.fs, reportFile, date, transport).sent == f1.sent
  {
    var f1 := SendDailyReport(fs, reportFile, date, transport);
    assert reportFile in f1.fs && f1.fs[reportFile] == fs[reportFile];
  }
}

=== FILE: host.dfy ===
/**
  The monitor's environment, reduced to values: the file system as a map from
  path to file state, outbound mail as a transport function, and the AI
  gateway as a function from a batch of log lines to a reply.
 */
module Host {

  /**
    What opening a path yields. A path missing from the map does not exist.
    `Present` opens for reading; when `writable` is false, opening it for
    writing or appending raises a permission error (a read-only mode, another
    owner). `Denied` raises a permission error on every open; `Broken` raises
    any other I/O error (a directory, a device failure).
   */
  datatype FileState = Present(content: string, writable: bool) | Denied | Broken

  type FileSystem = map<string, FileState>

  /** `os.path.exists`: true for every path in the map, readable or not. */
  predicate Exists(fs: FileSystem, path: string) {
    path in fs
  }

  /** Opening the path in mode `"w"` or `"a"` succeeds: it does not exist yet, or it is a writable file. */
  predicate Writable(fs: FileSystem, path: string) {
    path !in fs || (fs[path].Present? && fs[path].writable)
  }

  /** Every path other than `path` is in the same state in `fs` and `fs'`. */
  ghost predicate Unchanged(fs: FileSystem, fs': FileSystem, path: string) {
    && (forall q :: q != path ==> (q in fs <==> q in fs'))
    && (forall q :: q != path && q in fs ==> fs'[q] == fs[q])
  }

  /**
    `open(path, "w").write(text)` with its error caught: a missing or writable
    file ends up holding exactly `text`; one that cannot be opened for writing,
    read-only ones included, is left as it is (the open fails before truncating).
   */
  function WriteFile(fs: FileSystem, path: string, text: string): (fs': FileSystem)
    ensures Unchanged(fs, fs', path)
    ensures Writable(fs, path) ==> path in fs' && fs'[path] == Present(text, true)
    ensures !Writable(fs, path) ==> fs' == fs
  {
    if Writable(fs, path) then fs[path := Present(text, true)] else fs
  }

  /** Mode `"w"` truncates: a second write replaces the first entirely. */
  lemma WriteTwiceKeepsLast(fs: FileSystem, path: string, first: string, second: string)
    ensures WriteFile(WriteFile(fs, path, first), path, second) == WriteFile(fs, path, second)
  {
  }

  /**
    `open(path, "a").write(text)` with its error caught: append mode creates a
    missing file and extends a writable one; one that cannot be opened for
    writing, read-only ones included, is left as it is.
   */
  function AppendFile(fs: FileSystem, path: string, text: string): (fs': FileSystem)
    ensures Unchanged(fs, fs', path)
    ensures path in fs && Writable(fs, path) ==> path in fs' && fs'[path] == Present(fs[path].content + text, true)
    ensures path !in fs ==> path in fs' && fs'[path] == Present(text, true)
    ensures !Writable(fs, path) ==> fs' == fs
  {
    if path !in fs then fs[path := Present(text, true)]
    else match fs[path]
      case Present(c, true) => fs[path := Present(c + text, true)]
      case _ => fs
  }

  /** Two appends in a row leave the file as one append of both texts would. */
  lemma AppendTwice(fs: FileSystem, path: string, a: string, b: string)
    ensures AppendFile(AppendFile(fs, path, a), path, b) == AppendFile(fs, path, a + b)
  {
    if path in fs && Writable(fs, path) {
      assert fs[path].content + a + b == fs[path].content + (a + b);
    }
  }

  /** An outbound e-mail. */
  datatype Message = Message(subject: string, body: string)

  /** What one SMTP session ends with; every failure kind maps to its own error message. */
  datatype Delivery = Delivered | AuthRejected | SmtpFailed(detail: string) | OtherFailed(detail: string)

  /** The mail server, as the outcome it gives each message. */
  type Transport = Message -> Delivery

  /**
    The outcome of one call to the AI service: the reply text, or the message
    of whatever the client raised (including a reply with no content).
   */
  datatype GatewayReply = Reply(text: string) | Raised(detail: string)

  /** The AI service, as the reply it gives each batch of log lines. */
  type Gateway = seq<string> -> GatewayReply
}

=== FILE: legacy.dfy ===
/**
  The original single-file monitor (logianalyzer.py), which the engine
  replaced: it tails the same files, but it lets every error other than a
  missing file stop the program, mails every analysis, and finds the
  severity by picking whitespace-separated numbers out of the analysis.
 */
module LegacyAnalyzer {
  import opened Common
  import opened Text
  import opened Host
  import opened Tailer
  import Severity
  import LogMonitor

  /** An exception nothing catches: it ends `monitor_logs`, and the loop with it. */
  datatype Crash = ReadFailed(path: string) | GatewayFailed(detail: string)

  /**
    `read_new_logs`: the same seek/readlines/tell as the engine's reader, but
    only a missing file is caught (no lines, position kept); a permission or
    any other error escapes.
   */
  function LegacyReadNewLogs(fs: FileSystem, path: string, lastPosition: nat): (r: Result<Batch, Crash>)
    ensures r.Failure? <==> path in fs && !fs[path].Present?
    ensures r.Failure? ==> r.error == ReadFailed(path)
    ensures path !in fs ==> r == Success(Batch([], lastPosition))
    ensures CanTail(fs, path, lastPosition) ==>
              && r.Success?
              && Concat(r.value.lines) == fs[path].content[lastPosition..]
              && r.value.position == |fs[path].content|
    ensures path in fs && fs[path].Present? && !CanTail(fs, path, lastPosition) ==>
              r == Success(Batch([], lastPosition))
  {
    if path !in fs then Success(Batch([], lastPosition))
    else match fs[path]
      case Present(content, _) =>
        if lastPosition <= |content| then Success(Batch(SplitLines(content[lastPosition..]), |content|))
        else Success(Batch([], lastPosition))
      case Denied => Failure(ReadFailed(path))
      case Broken => Failure(ReadFailed(path))
  }

  /**
    Where the legacy reader survives it reads exactly what the engine's reader
    reads; where it does not, the engine's reader returns nothing and keeps the
    position.
   */
  lemma LegacyReadAgreesWithEngine(fs: FileSystem, path: string, lastPosition: nat)
    ensures LegacyReadNewLogs(fs, path, lastPosition).Success? ==>
              LegacyReadNewLogs(fs, path, lastPosition).value == ReadNewLogs(fs, path, lastPosition)
    ensures LegacyReadNewLogs(fs, path, lastPosition).Failure? ==>
              ReadNewLogs(fs, path, lastPosition) == Batch([], lastPosition)
  {
  }

  const NoNewEntries: string := "Pas de nouvelles entrées dans les logs."

  /**
    `analyze_logs_with_ai`: a fixed sentence for no lines; otherwise the
    stripped reply of the legacy script's own AI call, whose failure escapes.
   */
  function LegacyAnalyze(logs: seq<string>, legacyGateway: Gateway): (r: Result<string, Crash>)
    ensures |logs| == 0 ==> r == Success(NoNewEntries)
    ensures |logs| > 0 ==> (r.Success? <==> legacyGateway(logs).Reply?)
    ensures |logs| > 0 && legacyGateway(logs).Reply? ==> r == Success(Strip(legacyGateway(logs).text))
    ensures |logs| > 0 && legacyGateway(logs).Raised? ==> r.error == GatewayFailed(legacyGateway(logs).detail)
  {
    if |logs| == 0 then Success(NoNewEntries)
    else match legacyGateway(logs)
      case Reply(text) => Success(Strip(text))
      case Raised(detail) => Failure(GatewayFailed(detail))
  }

  /** A token the heuristic reads as a score: `s.isdigit()`, taken over ASCII digits only, and `1 <= int(s) <= 10`. */
  predicate IsScoreToken(t: string) {
    IsDecimal(t) && 1 <= DecimalValue(t) <= 10
  }

  /** The list comprehension over `analysis.split()`: the values of the score tokens, in order. */
  function Candidates(tokens: seq<string>): (scores: seq<nat>)
    ensures |scores| <= |tokens|
    ensures forall i :: 0 <= i < |scores| ==> 1 <= scores[i] <= 10
    decreases |tokens|
  {
    if |tokens| == 0 then []
    else (if IsScoreToken(tokens[0]) then [DecimalValue(tokens[0])] else []) + Candidates(tokens[1..])
  }

  /** A value is a candidate exactly when some token is a score token with that value. */
  lemma {:induction false} CandidatesMembers(tokens: seq<string>, v: nat)
    ensures v in Candidates(tokens) <==> exists i :: 0 <= i < |tokens| && IsScoreToken(tokens[i]) && DecimalValue(tokens[i]) == v
    decreases |tokens|
  {
    if |tokens| > 0 {
      CandidatesMembers(tokens[1..], v);
      if v in Candidates(tokens[1..]) {
        var i :| 0 <= i < |tokens[1..]| && IsScoreToken(tokens[1..][i]) && DecimalValue(tokens[1..][i]) == v;
        assert tokens[i + 1] == tokens[1..][i];
      }
      if exists i :: 0 <= i < |tokens| && IsScoreToken(tokens[i]) && DecimalValue(tokens[i]) == v {
        var i :| 0 <= i < |tokens| && IsScoreToken(tokens[i]) && DecimalValue(tokens[i]) == v;
        if i > 0 {
          assert tokens[1..][i - 1] == tokens[i];
        }
      }
    }
  }

  /** Without a score token there are no candidates. */
  lemma {:induction false} CandidatesNone(tokens: seq<string>)
    requires forall i :: 0 <= i < |tokens| ==> !IsScoreToken(tokens[i])
    ensures Candidates(tokens) == []
    decreases |tokens|
  {
    if |tokens| > 0 {
      CandidatesNone(tokens[1..]);
    }
  }

  /** Python's `max` on a non-empty list. */
  function MaxOf(s: seq<nat>): (m: nat)
    requires |s| > 0
    ensures m in s
    ensures forall i :: 0 <= i < |s| ==> s[i] <= m
    decreases |s|
  {
    if |s| == 1 then s[0]
    else
      var m := MaxOf(s[1..]);
      assert forall i :: 1 <= i < |s| ==> s[i] == s[1..][i - 1];
      if s[0] >= m then s[0] else m
  }

  /** `severity_score and max(severity_score) >= 7`. */
  predicate LegacyCritical(analysis: string) {
    var scores := Candidates(Tokens(analysis));
    |scores| > 0 && MaxOf(scores) >= 7
  }

  /** The legacy alert fires exactly when some whitespace-separated token is a number from 7 to 10. */
  lemma LegacyCriticalIffHighToken(analysis: string)
    ensures LegacyCritical(analysis) <==>
              exists t :: t in Tokens(analysis) && IsScoreToken(t) && DecimalValue(t) >= 7
  {
    HighCandidateIffHighToken(Tokens(analysis));
  }

  /** The largest candidate is 7 or more exactly when some token is a score token of 7 or more. */
  lemma HighCandidateIffHighToken(tokens: seq<string>)
    ensures (var scores := Candidates(tokens); |scores| > 0 && MaxOf(scores) >= 7) <==>
              exists t :: t in tokens && IsScoreToken(t) && DecimalValue(t) >= 7
  {
    var scores := Candidates(tokens);
    if |scores| > 0 && MaxOf(scores) >= 7 {
      var m := MaxOf(scores);
      CandidatesMembers(tokens, m);
      var i :| 0 <= i < |tokens| && IsScoreToken(tokens[i]) && DecimalValue(tokens[i]) == m;
      assert tokens[i] in tokens;
    }
    if exists t :: t in tokens && IsScoreToken(t) && DecimalValue(t) >= 7 {
      var t :| t in tokens && IsScoreToken(t) && DecimalValue(t) >= 7;
      var i :| 0 <= i < |tokens| && tokens[i] == t;
      CandidatesMembers(tokens, DecimalValue(t));
      var k :| 0 <= k < |scores| && scores[k] == DecimalValue(t);
      assert MaxOf(scores) >= scores[k];
    }
  }

  function AnalysisSubject(path: string): string {
    "Analyse des logs (" + path + ") :"
  }

  function LegacyAlertSubject(path: string): string {
    "Alerte Log - Anomalie critique dans " + path
  }

  /**
    The emails for one analysed batch: the analysis itself, then the alert
    when the heuristic finds the batch critical. `send_email` swallows every
    error, so each is only handed to the transport.
   */
  function LegacyEmails(path: string, analysis: string): (msgs: seq<Message>)
    ensures 1 <= |msgs| <= 2
    ensures msgs[0] == Message(AnalysisSubject(path), analysis)
    ensures |msgs| == 2 <==> LegacyCritical(analysis)
    ensures |msgs| == 2 ==> msgs[1] == Message(LegacyAlertSubject(path), analysis)
  {
    var report := Message(AnalysisSubject(path), analysis);
    if LegacyCritical(analysis) then [report, Message(LegacyAlertSubject(path), analysis)] else [report]
  }

  /** What one file contributes to a completed cycle: its new position and the emails sent. */
  datatype FileOutcome = FileOutcome(position: nat, sent: seq<Message>)

  /** The file's read does not escape, and a non-empty batch gets a reply from the AI call. */
  predicate Survives(fs: FileSystem, path: string, lastPosition: nat, legacyGateway: Gateway) {
    var read := LegacyReadNewLogs(fs, path, lastPosition);
    read.Success? && (|read.value.lines| > 0 ==> legacyGateway(read.value.lines).Reply?)
  }

  /**
    One iteration of the inner loop of `monitor_logs`: take the read's result,
    record its position, and analyse and mail a non-empty batch.
   */
  function LegacyHandleFile(fs: FileSystem, path: string, lastPosition: nat, legacyGateway: Gateway): (r: Result<FileOutcome, Crash>)
    ensures r.Success? <==> Survives(fs, path, lastPosition, legacyGateway)
    ensures r.Success? ==> r.value.position == LegacyReadNewLogs(fs, path, lastPosition).value.position
  {
    match LegacyReadNewLogs(fs, path, lastPosition)
    case Failure(e) => Failure(e)
    case Success(batch) =>
      if |batch.lines| == 0 then Success(FileOutcome(batch.position, []))
      else match LegacyAnalyze(batch.lines, legacyGateway)
        case Failure(e) => Failure(e)
        case Success(analysis) => Success(FileOutcome(batch.position, LegacyEmails(path, analysis)))
  }

  /**
    The mail of a handled file: none for an empty batch, otherwise the
    analysis report, and the alert too when the heuristic finds it critical.
   */
  lemma LegacyHandleFileMail(fs: FileSystem, path: string, lastPosition: nat, legacyGateway: Gateway)
    ensures var r := LegacyHandleFile(fs, path, lastPosition, legacyGateway);
            && (r.Success? ==> (|r.value.sent| == 0 <==> |LegacyReadNewLogs(fs, path, lastPosition).value.lines| == 0))
            && (r.Success? && |r.value.sent| > 0 ==>
                  var lines := LegacyReadNewLogs(fs, path, lastPosition).value.lines;
                  r.value.sent == LegacyEmails(path, Strip(legacyGateway(lines).text)))
  {
  }

  /** How a legacy cycle ends: every file handled, or stopped by an escaping error after some emails went out. */
  datatype LegacyRun =
    | Completed(positions: map<string, nat>, sent: seq<Message>)
    | Crashed(reason: Crash, sent: seq<Message>)

  /** Where `x` first occurs in `s`. */
  function FirstIndex(s: seq<string>, x: string): (i: nat)
    requires x in s
    ensures i < |s| && s[i] == x
    ensures forall k :: 0 <= k < i ==> s[k] != x
  {
    if s[0] == x then 0 else 1 + FirstIndex(s[1..], x)
  }

  /**
    The listed files in order of first occurrence, each once: the keys of the
    `futures` dict, which the inner loop visits in this order.
   */
  function Distinct(files: seq<string>): (d: seq<string>)
    ensures forall f :: f in d <==> f in files
    ensures forall i, j :: 0 <= i < j < |d| ==> d[i] != d[j]
    ensures forall i, j :: 0 <= i < j < |d| ==> FirstIndex(files, d[i]) < FirstIndex(files, d[j])
    decreases |files|
  {
    if |files| == 0 then []
    else
      var prefix := files[..|files| - 1];
      var rest := Distinct(prefix);
      var last := files[|files| - 1];
      assert files == prefix + [last];
      FirstIndicesOfPrefix(files, rest);
      if last in rest then rest
      else
        FirstIndexOfNewLast(files);
        rest + [last]
  }

  /** Adding an element at the end moves no first occurrence among the earlier ones. */
  lemma FirstIndexInPrefix(s: seq<string>, x: string, n: nat)
    requires n <= |s| && x in s[..n]
    ensures FirstIndex(s, x) == FirstIndex(s[..n], x) < n
  {
    var i := FirstIndex(s, x);
    var j := FirstIndex(s[..n], x);
    assert s[j] == s[..n][j];
    assert i <= j;
    assert s[..n][i] == s[i];
  }

  lemma FirstIndicesOfPrefix(files: seq<string>, rest: seq<string>)
    requires |files| > 0
    requires forall i :: 0 <= i < |rest| ==> rest[i] in files[..|files| - 1]
    ensures forall i :: 0 <= i < |rest| ==> rest[i] in files
    ensures forall i :: 0 <= i < |rest| ==>
              FirstIndex(files, rest[i]) == FirstIndex(files[..|files| - 1], rest[i]) < |files| - 1
  {
    forall i | 0 <= i < |rest|
      ensures rest[i] in files
      ensures FirstIndex(files, rest[i]) == FirstIndex(files[..|files| - 1], rest[i]) < |files| - 1
    {
      assert rest[i] in files[..|files| - 1];
      FirstIndexInPrefix(files, rest[i], |files| - 1);
    }
  }

  /** An element that first occurs at the very end has its first occurrence there. */
  lemma FirstIndexOfNewLast(files: seq<string>)
    requires |files| > 0 && files[|files| - 1] !in files[..|files| - 1]
    ensures FirstIndex(files, files[|files| - 1]) == |files| - 1
  {
    forall k | 0 <= k < |files| - 1
      ensures files[k] != files[|files| - 1]
    {
      assert files[..|files| - 1][k] == files[k];
    }
  }

  /**
    The inner loop over the futures: every read was submitted with the
    positions of the cycle's start, and the results are taken one file at a
    time; the first escaping error ends everything.
   */
  function RunFiles(fs: FileSystem, files: seq<string>, start: map<string, nat>, legacyGateway: Gateway,
                    positions: map<string, nat>, sent: seq<Message>): (r: LegacyRun)
    requires forall f :: f in files ==> f in start
    ensures r.Completed? <==> forall f :: f in files ==> Survives(fs, f, start[f], legacyGateway)
    ensures sent <= r.sent
    decreases |files|
  {
    if |files| == 0 then Completed(positions, sent)
    else
      var f := files[0];
      assert forall g :: g in files ==> g == f || g in files[1..];
      match LegacyHandleFile(fs, f, start[f], legacyGateway)
      case Failure(e) => Crashed(e, sent)
      case Success(o) => RunFiles(fs, files[1..], start, legacyGateway, positions[f := o.position], sent + o.sent)
  }

  /**
    A completed run has overwritten the position of every file it handled with
    the position that file's read returned, and kept every other one.
   */
  lemma {:induction false} RunFilesPositions(fs: FileSystem, files: seq<string>, start: map<string, nat>, legacyGateway: Gateway,
                                             positions: map<string, nat>, sent: seq<Message>)
    requires forall f :: f in files ==> f in start && f in positions
    requires RunFiles(fs, files, start, legacyGateway, positions, sent).Completed?
    ensures var r := RunFiles(fs, files, start, legacyGateway, positions, sent);
            && r.positions.Keys == positions.Keys
            && (forall f :: f in files ==> r.positions[f] == LegacyReadNewLogs(fs, f, start[f]).value.position)
            && (forall f :: f in positions && f !in files ==> r.positions[f] == positions[f])
    decreases |files|
  {
    if |files| > 0 {
      var f := files[0];
      var o := RunFilesStep(fs, files, start, legacyGateway, positions, sent);
      var next := positions[f := o.position];
      RunFilesPositions(fs, files[1..], start, legacyGateway, next, sent + o.sent);
      var r := RunFiles(fs, files[1..], start, legacyGateway, next, sent + o.sent);
      forall g | g in files
        ensures r.positions[g] == LegacyReadNewLogs(fs, g, start[g]).value.position
      {
        if g !in files[1..] {
          assert g == f;
        }
      }
    }
  }

  /** A file that survives hands its position and its mail to the run of the files after it. */
  lemma RunFilesStep(fs: FileSystem, files: seq<string>, start: map<string, nat>, legacyGateway: Gateway,
                     positions: map<string, nat>, sent: seq<Message>) returns (o: FileOutcome)
    requires |files| > 0 && forall f :: f in files ==> f in start
    requires RunFiles(fs, files, start, legacyGateway, positions, sent).Completed?
    ensures o.position == LegacyReadNewLogs(fs, files[0], start[files[0]]).value.position
    ensures forall f :: f in files[1..] ==> f in start
    ensures RunFiles(fs, files, start, legacyGateway, positions, sent)
            == RunFiles(fs, files[1..], start, legacyGateway, positions[files[0] := o.position], sent + o.sent)
  {
    assert Survives(fs, files[0], start[files[0]], legacyGateway);
    o := LegacyHandleFile(fs, files[0], start[files[0]], legacyGateway).value;
  }

  /** `log_positions = {log_file: 0 for log_file in LOG_FILES}`. */
  function LegacyStart(files: seq<string>): (positions: map<string, nat>)
    ensures positions.Keys == set f | f in files
    ensures forall f :: f in positions ==> positions[f] == 0
  {
    map f | f in files :: 0
  }

  /**
    One pass of the `while True` loop. A completed pass overwrites the
    position of every listed file with the position its read returned, and
    leaves no other key; an escaping error stops the program.
   */
  function LegacyCycle(fs: FileSystem, files: seq<string>, positions: map<string, nat>, legacyGateway: Gateway): (r: LegacyRun)
    requires forall f :: f in files ==> f in positions
    ensures r.Completed? <==> forall f :: f in files ==> Survives(fs, f, positions[f], legacyGateway)
    ensures r.Completed? ==> r.positions.Keys == positions.Keys
    ensures r.Completed? ==> forall f :: f in files ==>
              r.positions[f] == LegacyReadNewLogs(fs, f, positions[f]).value.position
    ensures r.Completed? ==> forall f :: f in positions && f !in files ==> r.positions[f] == positions[f]
  {
    var d := Distinct(files);
    var r := RunFiles(fs, d, positions, legacyGateway, positions, []);
    if r.Completed? then
      RunFilesPositions(fs, d, positions, legacyGateway, positions, []);
      r
    else r
  }

  /**
    A listed file with new lines whose analysis call fails stops the pass: the
    exception from `analyze_logs_with_ai` escapes the loop, and with it the program.
   */
  lemma AnalysisFailureStopsThePass(fs: FileSystem, files: seq<string>, positions: map<string, nat>,
                                    legacyGateway: Gateway, f: string)
    requires forall g :: g in files ==> g in positions
    requires f in files && LegacyReadNewLogs(fs, f, positions[f]).Success?
    requires |LegacyReadNewLogs(fs, f, positions[f]).value.lines| > 0
    requires legacyGateway(LegacyReadNewLogs(fs, f, positions[f]).value.lines).Raised?
    ensures LegacyCycle(fs, files, positions, legacyGateway).Crashed?
  {
    assert !Survives(fs, f, positions[f], legacyGateway);
  }

  /**
    When no listed file has new lines and every read survives, a legacy pass
    completes, sends nothing and moves no position.
   */
  lemma QuietLegacyCycle(fs: FileSystem, files: seq<string>, positions: map<string, nat>, legacyGateway: Gateway)
    requires forall f :: f in files ==> f in positions
    requires forall f :: f in files ==> f !in fs || (fs[f].Present? && |fs[f].content| <= positions[f])
    ensures LegacyCycle(fs, files, positions, legacyGateway) == Completed(positions, [])
  {
    var d := Distinct(files);
    QuietRun(fs, d, positions, legacyGateway, positions);
  }

  lemma {:induction false} QuietRun(fs: FileSystem, files: seq<string>, start: map<string, nat>, legacyGateway: Gateway,
                                    positions: map<string, nat>)
    requires forall f :: f in files ==> f in start && f in positions && positions[f] == start[f]
    requires forall f :: f in files ==> f !in fs || (fs[f].Present? && |fs[f].content| <= start[f])
    ensures RunFiles(fs, files, start, legacyGateway, positions, []) == Completed(positions, [])
    decreases |files|
  {
    if |files| > 0 {
      var f := files[0];
      var read := LegacyReadNewLogs(fs, f, start[f]);
      if f in fs && |fs[f].content| == start[f] {
        assert fs[f].content[start[f]..] == "";
        NoTextNoLines(read.value.lines);
      }
      assert read == Success(Batch([], start[f]));
      assert positions[f := start[f]] == positions;
      assert forall g :: g in files[1..] ==> g in files;
      QuietRun(fs, files[1..], start, legacyGateway, positions);
      var none: seq<Message> := [];
      assert none + none == none;
    }
  }

  /** The analysis shape the engine asks for: the protocol line, then two words of explanation. */
  function ScoredAnalysis(digits: string, w1: string, w2: string): string {
    Severity.ScoreToken + " " + digits + ("\n" + (w1 + " " + w2))
  }

  lemma Regroup(p: string, d: string, n: string, y: string)
    ensures p + d + (n + y) == p + (d + n + y)
  {
  }

  lemma ScoredAnalysisTokens(digits: string, w1: string, w2: string)
    requires IsDecimal(digits) && IsWord(w1) && IsWord(w2)
    ensures Tokens(ScoredAnalysis(digits, w1, w2)) == [Severity.ScoreToken, digits, w1, w2]
  {
    assert Severity.ScoreToken[0] == 'S';
    FourTokens(Severity.ScoreToken, " ", digits, "\n", w1, " ", w2);
    Regroup(Severity.ScoreToken + " ", digits, "\n", w1 + " " + w2);
  }

  lemma ScoredAnalysisScore(digits: string, w1: string, w2: string)
    requires IsDecimal(digits)
    ensures Severity.ExtractSeverityScore(ScoredAnalysis(digits, w1, w2)) == Severity.Clamp(DecimalValue(digits))
  {
    var rest := "\n" + (w1 + " " + w2);
    assert rest[0] == '\n';
    Severity.LeadingScoreLine(" ", digits, rest);
  }

  /**
    A score out of range: a protocol line scoring above 10 makes the engine
    clamp to 10 and raise a critical alert, while the legacy heuristic ignores
    the number and, with no other number in the text, stays quiet.
   */
  lemma ScoreAboveTenAlertsOnlyInEngine(digits: string, w1: string, w2: string)
    requires IsDecimal(digits) && DecimalValue(digits) > 10
    requires IsWord(w1) && IsWord(w2) && !IsDigit(w1[0]) && !IsDigit(w2[0])
    ensures LogMonitor.Route(Severity.ExtractSeverityScore(ScoredAnalysis(digits, w1, w2))).Critical?
    ensures !LegacyCritical(ScoredAnalysis(digits, w1, w2))
  {
    ScoredAnalysisScore(digits, w1, w2);
    NoLegacyScoreAboveTen(digits, w1, w2);
  }

  lemma NoLegacyScoreAboveTen(digits: string, w1: string, w2: string)
    requires IsDecimal(digits) && DecimalValue(digits) > 10
    requires IsWord(w1) && IsWord(w2) && !IsDigit(w1[0]) && !IsDigit(w2[0])
    ensures !LegacyCritical(ScoredAnalysis(digits, w1, w2))
  {
    assert Severity.ScoreToken[0] == 'S';
    NotScoreToken(Severity.ScoreToken);
    NotScoreToken(w1);
    NotScoreToken(w2);
    var tokens := [Severity.ScoreToken, digits, w1, w2];
    assert forall i :: 0 <= i < |tokens| ==> !IsScoreToken(tokens[i]);
    ScoredAnalysisTokens(digits, w1, w2);
    QuietWithoutScoreTokens(ScoredAnalysis(digits, w1, w2), tokens);
  }

  lemma NotScoreToken(w: string)
    requires |w| > 0 && !IsDigit(w[0])
    ensures !IsScoreToken(w)
  {
  }

  lemma QuietWithoutScoreTokens(analysis: string, tokens: seq<string>)
    requires Tokens(analysis) == tokens
    requires forall i :: 0 <= i < |tokens| ==> !IsScoreToken(tokens[i])
    ensures !LegacyCritical(analysis)
  {
    CandidatesNone(tokens);
  }

  lemma AlertOnHighToken(analysis: string, tokens: seq<string>, i: nat)
    requires Tokens(analysis) == tokens
    requires i < |tokens| && IsScoreToken(tokens[i]) && DecimalValue(tokens[i]) >= 7
    ensures LegacyCritical(analysis)
  {
    assert tokens[i] in Tokens(analysis);
    LegacyCriticalIffHighToken(analysis);
  }

  lemma DecimalIsWord(s: string)
    requires IsDecimal(s)
    ensures IsWord(s)
  {
    assert forall i :: 0 <= i < |s| ==> IsDigit(s[i]) && !IsSpace(s[i]);
  }

  /**
    A number in the prose: the engine reads only the protocol line and routes
    its low score as a plain anomaly, while the legacy heuristic alerts on a
    number from 7 to 10 anywhere in the text.
   */
  lemma ProseNumberAlertsOnlyInLegacy(digits: string, number: string, w2: string)
    requires IsDecimal(digits) && 1 <= DecimalValue(digits) <= 6
    requires IsDecimal(number) && 7 <= DecimalValue(number) <= 10 && IsWord(w2)
    ensures LogMonitor.Route(Severity.ExtractSeverityScore(ScoredAnalysis(digits, number, w2))).Anomaly?
    ensures LegacyCritical(ScoredAnalysis(digits, number, w2))
  {
    ScoredAnalysisScore(digits, number, w2);
    DecimalIsWord(number);
    ScoredAnalysisTokens(digits, number, w2);
    AlertOnHighToken(ScoredAnalysis(digits, number, w2), [Severity.ScoreToken, digits, number, w2], 2);
  }

  /** "SEVERITY_SCORE: 15" then "Invalid score": critical for the engine, quiet for the legacy loop. */
  lemma FifteenAlertsOnlyInEngine()
    ensures LogMonitor.Route(Severity.ExtractSeverityScore(ScoredAnalysis("15", "Invalid", "score"))).Critical?
    ensures !LegacyCritical(ScoredAnalysis("15", "Invalid", "score"))
  {
    assert DecimalValue("15") == 15;
    ScoreAboveTenAlertsOnlyInEngine("15", "Invalid", "score");
  }

  /** "SEVERITY_SCORE: 2" then "9 erreurs": an anomaly for the engine, an alert for the legacy loop. */
  lemma NineErrorsAlertsOnlyInLegacy()
    ensures LogMonitor.Route(Severity.ExtractSeverityScore(ScoredAnalysis("2", "9", "erreurs"))).Anomaly?
    ensures LegacyCritical(ScoredAnalysis("2", "9", "erreurs"))
  {
    assert DecimalValue("2") == 2 && DecimalValue("9") == 9;
    ProseNumberAlertsOnlyInLegacy("2", "9", "erreurs");
  }

  predicate IsBlank(b: string) {
    |b| > 0 && forall i :: 0 <= i < |b| ==> IsSpace(b[i])
  }

  predicate IsWord(w: string) {
    |w| > 0 && NoSpace(w)
  }

  /** Four words separated by whitespace are its four tokens. */
  lemma FourTokens(w1: string, b1: string, w2: string, b2: string, w3: string, b3: string, w4: string)
    requires IsWord(w1) && IsWord(w2) && IsWord(w3) && IsWord(w4)
    requires IsBlank(b1) && IsBlank(b2) && IsBlank(b3)
    ensures Tokens(w1 + b1 + (w2 + b2 + (w3 + b3 + w4))) == [w1, w2, w3, w4]
  {
    ThreeTokens(w2, b2, w3, b3, w4);
    PrependToken(w1, b1, w2 + b2 + (w3 + b3 + w4), [w2, w3, w4]);
  }

  lemma PrependToken(word: string, blank: string, rest: string, ts: seq<string>)
    requires IsWord(word) && IsBlank(blank) && Tokens(rest) == ts
    ensures Tokens(word + blank + rest) == [word] + ts
  {
    TokensOfWordThen(word, blank, rest);
  }

  lemma ThreeTokens(w2: string, b2: string, w3: string, b3: string, w4: string)
    requires IsWord(w2) && IsWord(w3) && IsWord(w4)
    requires IsBlank(b2) && IsBlank(b3)
    ensures Tokens(w2 + b2 + (w3 + b3 + w4)) == [w2, w3, w4]
  {
    TwoTokens(w3, b3, w4);
    TokensOfWordThen(w2, b2, w3 + b3 + w4);
  }

  lemma TwoTokens(w3: string, b3: string, w4: string)
    requires IsWord(w3) && IsWord(w4) && IsBlank(b3)
    ensures Tokens(w3 + b3 + w4) == [w3, w4]
  {
    TokensOfWord(w4);
    TokensOfWordThen(w3, b3, w4);
  }
}

=== FILE: log_monitor.dfy ===
/**
  The monitoring engine (src/log_monitor.py): the analysis call with its
  empty-batch and failure short-circuits, the daily-report entry, severity
  routing in `process_log_file`, and one cycle of `monitor_logs` over the
  per-file position map.
 */
module LogMonitor {
  import opened Common
  import opened Text
  import opened Host
  import opened Tailer
  import opened Severity
  import opened EmailSender
  import opened Paths

  /** The analysis of an empty batch, produced without calling the service. */
  const NoNewEntriesAnalysis: string := ScoreToken + " " + "0" + "\nPas de nouvelles entrées dans les logs."

  const GatewayErrorNotice: string := "Erreur d'analyse IA - Impossible de traiter les logs.\nDétails: "

  /** The analysis that stands in for a failed service call. */
  function GatewayErrorAnalysis(detail: string): string {
    ScoreToken + " " + "0" + ("\n" + (GatewayErrorNotice + detail))
  }

  /**
    `analyze_logs_with_ai(logs, config)`: an empty batch never reaches the
    service; a service failure becomes a fallback text. Both score 0. A reply
    is returned stripped.
   */
  function AnalyzeLogs(logs: seq<string>, gateway: Gateway): (analysis: string)
    ensures |logs| == 0 || gateway(logs).Raised? ==> ExtractSeverityScore(analysis) == 0
    ensures |logs| > 0 && gateway(logs).Reply? ==> analysis == Strip(gateway(logs).text)
  {
    if |logs| == 0 then
      LeadingScoreLine(" ", "0", "\nPas de nouvelles entrées dans les logs.");
      NoNewEntriesAnalysis
    else match gateway(logs)
      case Reply(text) => Strip(text)
      case Raised(detail) =>
        var rest := "\n" + (GatewayErrorNotice + detail);
        assert rest[0] == '\n';
        LeadingScoreLine(" ", "0", rest);
        GatewayErrorAnalysis(detail)
  }

  /** Whatever the service would answer, an empty batch gets the same analysis: the service is not consulted. */
  lemma EmptyBatchNeverReachesGateway(g1: Gateway, g2: Gateway)
    ensures AnalyzeLogs([], g1) == AnalyzeLogs([], g2) == NoNewEntriesAnalysis
  {
  }

  /** One block of the daily report: `\n[<timestamp>] [<log file>]\n<analysis>\n`. */
  function ReportEntry(timestamp: string, logFile: string, analysis: string): string {
    "\n[" + timestamp + "] [" + logFile + "]\n" + analysis + "\n"
  }

  /** `save_analysis_to_report`: appends one entry; a report that cannot be opened for appending, a read-only one included, drops it. */
  function SaveAnalysisToReport(fs: FileSystem, reportFile: string, entry: string): (fs': FileSystem)
    ensures Unchanged(fs, fs', reportFile)
    ensures Writable(fs, reportFile) ==>
              reportFile in fs' && fs'[reportFile] == Present((if reportFile in fs then fs[reportFile].content else "") + entry, true)
    ensures !Writable(fs, reportFile) ==> fs' == fs
  {
    assert "" + entry == entry;
    AppendFile(fs, reportFile, entry)
  }

  /** The report after saving several entries one after another. */
  function SaveAll(fs: FileSystem, reportFile: string, entries: seq<string>): FileSystem
    decreases |entries|
  {
    if |entries| == 0 then fs
    else SaveAll(SaveAnalysisToReport(fs, reportFile, entries[0]), reportFile, entries[1..])
  }

  /**
    The digest is append-only: in a writable report, saved entries follow the
    earlier content in the order they were saved; a read-only report drops
    them all and nothing changes.
   */
  lemma {:induction false} DigestKeepsEntriesInOrder(fs: FileSystem, reportFile: string, entries: seq<string>)
    requires reportFile in fs && fs[reportFile].Present?
    ensures fs[reportFile].writable ==>
              var fs' := SaveAll(fs, reportFile, entries);
              reportFile in fs' && fs'[reportFile] == Present(fs[reportFile].content + Concat(entries), true)
    ensures !fs[reportFile].writable ==> SaveAll(fs, reportFile, entries) == fs
    decreases |entries|
  {
    if |entries| == 0 {
      assert fs[reportFile].content + "" == fs[reportFile].content;
    } else {
      var fs1 := SaveAnalysisToReport(fs, reportFile, entries[0]);
      DigestKeepsEntriesInOrder(fs1, reportFile, entries[1..]);
      assert fs[reportFile].content + entries[0] + Concat(entries[1..])
          == fs[reportFile].content + Concat(entries);
    }
  }

  /** A text whose first character and some character at or past the marker's length are not whitespace has something to report. */
  lemma SomethingToReport(s: string, k: nat)
    requires |ReportMarker| <= k < |s|
    requires !IsSpace(s[0]) && !IsSpace(s[k])
    ensures !NothingToReport(s)
  {
    var t := TrimStart(s);
    assert t == s;
    var r := TrimEnd(s);
    assert |r| > k;
  }

  /**
    A digest of one or more entries after the marker is sent whole, as one
    message; once delivered it is archived and the report is back to the
    marker. A fresh report that cannot be written keeps no entry, so its flush
    sends nothing.
   */
  lemma DigestIsSentWhole(fs: FileSystem, reportFile: string, entries: seq<(string, string, string)>,
                          date: string, transport: Transport)
    requires reportFile in fs && fs[reportFile].Present? && fs[reportFile].content == ResetContent
    requires |entries| > 0
    ensures var texts := seq(|entries|, i requires 0 <= i < |entries| => ReportEntry(entries[i].0, entries[i].1, entries[i].2));
            var digest := ResetContent + Concat(texts);
            var f := SendDailyReport(SaveAll(fs, reportFile, texts), reportFile, date, transport);
            && (fs[reportFile].writable ==>
                  && f.sent == [Message(DailyReportSubject(date), digest)]
                  && (f.ok <==> transport(Message(DailyReportSubject(date), digest)) == Delivered)
                  && (f.ok ==> f.fs[reportFile] == Present(ResetContent, true)))
            && (!fs[reportFile].writable ==> f == Flush(fs, true, []))
  {
    var texts := seq(|entries|, i requires 0 <= i < |entries| => ReportEntry(entries[i].0, entries[i].1, entries[i].2));
    DigestKeepsEntriesInOrder(fs, reportFile, texts);
    if !fs[reportFile].writable {
      FlushOfMarkerOnly(fs, reportFile, date, transport);
      return;
    }
    var digest := ResetContent + Concat(texts);
    assert Concat(texts) == texts[0] + Concat(texts[1..]);
    assert texts[0][1] == '[';
    assert digest[|ResetContent| + 1] == '[';
    assert digest[0] == ReportMarker[0];
    SomethingToReport(digest, |ResetContent| + 1);
  }

  /** What `process_log_file` decides, one branch per message it logs. */
  datatype Decision = NoNewLines | Clean | Anomaly(score: int) | Critical(score: int)

  /** Severity routing: 7 and above alerts, 1 to 6 is only logged, 0 does nothing. */
  function Route(score: int): (d: Decision)
    ensures d.Critical? <==> score >= 7
    ensures d.Anomaly? <==> 1 <= score <= 6
    ensures d.Clean? <==> score <= 0
    ensures d.Critical? || d.Anomaly? ==> d.score == score
  {
    if score >= 7 then Critical(score)
    else if score > 0 then Anomaly(score)
    else Clean
  }

  /** The effects of one `process_log_file` task and the position it returns. */
  datatype TaskResult = TaskResult(fs: FileSystem, alerts: seq<Message>, position: nat, decision: Decision)

  /**
    `process_log_file(log_file, last_position, config)`. It always returns the
    read's position. No new lines: no report entry, no alert. New lines: one
    report entry holding the analysis, and exactly one alert when the score is
    7 or more, none otherwise.
   */
  function ProcessLogFile(fs: FileSystem, logFile: string, lastPosition: nat, reportFile: string,
                          now: string, gateway: Gateway): (t: TaskResult)
    ensures t.position == ReadNewLogs(fs, logFile, lastPosition).position
    ensures Unchanged(fs, t.fs, reportFile)
    ensures |t.alerts| == (if t.decision.Critical? then 1 else 0)
  {
    var b := ReadNewLogs(fs, logFile, lastPosition);
    if |b.lines| == 0 then TaskResult(fs, [], b.position, NoNewLines)
    else
      var analysis := AnalyzeLogs(b.lines, gateway);
      var fs' := SaveAnalysisToReport(fs, reportFile, ReportEntry(now, logFile, analysis));
      var score := ExtractSeverityScore(analysis);
      var decision := Route(score);
      var alerts := if decision.Critical? then [AlertMessage(logFile, analysis, score, now)] else [];
      TaskResult(fs', alerts, b.position, decision)
  }

  /**
    What one task does with its batch: nothing when there are no new lines;
    otherwise it appends the analysis to the report, routes on its score and
    alerts exactly when the score is 7 or more.
   */
  lemma ProcessLogFileOutcome(fs: FileSystem, logFile: string, lastPosition: nat, reportFile: string,
                              now: string, gateway: Gateway)
    ensures var t := ProcessLogFile(fs, logFile, lastPosition, reportFile, now, gateway);
            var b := ReadNewLogs(fs, logFile, lastPosition);
            && (|b.lines| == 0 ==> t.fs == fs && t.alerts == [] && t.decision == NoNewLines)
            && (|b.lines| > 0 ==>
                  var analysis := AnalyzeLogs(b.lines, gateway);
                  var score := ExtractSeverityScore(analysis);
                  && t.fs == SaveAnalysisToReport(fs, reportFile, ReportEntry(now, logFile, analysis))
                  && t.decision == Route(score)
                  && (score >= 7 ==> t.alerts == [AlertMessage(logFile, analysis, score, now)])
                  && (score < 7 ==> t.alerts == []))
  {
  }

  /** When the service fails on a batch, the cycle still records it, scored 0, and sends no alert. */
  lemma GatewayFailureIsRecordedWithoutAlert(fs: FileSystem, logFile: string, lastPosition: nat, reportFile: string,
                                             now: string, gateway: Gateway)
    requires |ReadNewLogs(fs, logFile, lastPosition).lines| > 0
    requires gateway(ReadNewLogs(fs, logFile, lastPosition).lines).Raised?
    ensures var t := ProcessLogFile(fs, logFile, lastPosition, reportFile, now, gateway);
            t.decision == Clean && t.alerts == []
  {
    ProcessLogFileOutcome(fs, logFile, lastPosition, reportFile, now, gateway);
  }

  /** The monitor's state between cycles: files, saved positions, and every message handed to the transport so far. */
  datatype Monitor = Monitor(fs: FileSystem, positions: map<string, nat>, outbox: seq<Message>)

  /**
    `initialize_daily_report`: a missing report is created holding the marker
    line, once `os.makedirs` has made its directory. For a path without a
    directory part `os.makedirs("")` raises, and the handler calls `sys.exit(1)`:
    that outcome is `None`.
   */
  function InitializeDailyReport(fs: FileSystem, reportFile: string): (r: Option<FileSystem>)
    ensures r.None? <==> !Exists(fs, reportFile) && Dirname(reportFile) == ""
    ensures reportFile in fs ==> r == Some(fs)
    ensures r.Some? ==> reportFile in r.value && Unchanged(fs, r.value, reportFile)
    ensures r.Some? && reportFile !in fs ==> r.value[reportFile] == Present(ResetContent, true)
  {
    if Exists(fs, reportFile) then Some(fs)
    else if Dirname(reportFile) == "" then None
    else Some(fs[reportFile := Present(ResetContent, true)])
  }

  /**
    The start of `monitor_logs`: every configured file at position 0 and the
    report initialised, or the exit of `initialize_daily_report`.
   */
  function StartMonitoring(fs: FileSystem, logFiles: seq<string>, reportFile: string): (m: Option<Monitor>)
    ensures m.None? <==> !Exists(fs, reportFile) && Dirname(reportFile) == ""
    ensures m.Some? ==> forall f :: f in logFiles <==> f in m.value.positions
    ensures m.Some? ==> forall f :: f in m.value.positions ==> m.value.positions[f] == 0
    ensures m.Some? ==> reportFile in m.value.fs && m.value.outbox == []
  {
    match InitializeDailyReport(fs, reportFile)
    case None => None
    case Some(fs') => Some(Monitor(fs', map f | f in logFiles :: 0, []))
  }

  /** A missing report named without any directory, such as `rapport.txt`, stops the program at start. */
  lemma BareReportNameStopsStart(fs: FileSystem, logFiles: seq<string>, reportFile: string)
    requires '/' !in reportFile && !Exists(fs, reportFile)
    ensures StartMonitoring(fs, logFiles, reportFile) == None
  {
    NoSlashNoDirname(reportFile);
  }

  /** The result of running every file's task: the file system after them, their alerts in order, and each file's returned position. */
  datatype Tasks = Tasks(fs: FileSystem, alerts: seq<Message>, returned: map<string, nat>)

  /**
    Running the cycle's tasks, one per configured file, each from the position
    saved before the cycle. Only the report changes; a file's returned position
    is the end its read reached, taken from its last task when the file is
    configured twice (the futures are kept in a dict keyed by file).
   */
  function RunTasks(fs: FileSystem, logFiles: seq<string>, positions: map<string, nat>, reportFile: string,
                    now: string, gateway: Gateway): (r: Tasks)
    requires forall f :: f in logFiles ==> f in positions
    ensures forall f :: f in logFiles <==> f in r.returned
    ensures Unchanged(fs, r.fs, reportFile)
    ensures forall f :: f in r.returned && f != reportFile ==>
              r.returned[f] == ReadNewLogs(fs, f, positions[f]).position
    decreases |logFiles|
  {
    if |logFiles| == 0 then Tasks(fs, [], map[])
    else
      var f := logFiles[0];
      var t := ProcessLogFile(fs, f, positions[f], reportFile, now, gateway);
      var rest := RunTasks(t.fs, logFiles[1..], positions, reportFile, now, gateway);
      assert forall g :: g in logFiles <==> g == f || g in logFiles[1..];
      ReturnedPositions(fs, t.fs, reportFile, positions, f, t.position, rest.returned);
      Tasks(rest.fs, t.alerts + rest.alerts, map[f := t.position] + rest.returned)
  }

  /** The positions returned by a file's task and by the tasks after it, which saw only the report change. */
  lemma ReturnedPositions(fs: FileSystem, fs': FileSystem, reportFile: string, positions: map<string, nat>,
                          f: string, position: nat, later: map<string, nat>)
    requires Unchanged(fs, fs', reportFile)
    requires f in positions && (f != reportFile ==> position == ReadNewLogs(fs, f, positions[f]).position)
    requires forall g :: g in later ==> g in positions
    requires forall g :: g in later && g != reportFile ==> later[g] == ReadNewLogs(fs', g, positions[g]).position
    ensures forall g :: g in map[f := position] + later && g != reportFile ==>
              (map[f := position] + later)[g] == ReadNewLogs(fs, g, positions[g]).position
  {
    OtherReadsUnaffected(fs, fs', reportFile);
  }

  /** A read depends only on the state of the file it reads, so a change to one file leaves every other read as it was. */
  lemma OtherReadsUnaffected(fs: FileSystem, fs': FileSystem, path: string)
    requires Unchanged(fs, fs', path)
    ensures forall q, p: nat :: q != path ==> ReadNewLogs(fs', q, p) == ReadNewLogs(fs, q, p)
  {
  }

  /** The daily flush, when the scheduler finds it due during this cycle: the date and the mail server of that moment. */
  datatype DailyTrigger = DailyTrigger(date: string, transport: Transport)

  /**
    One iteration of the `monitor_logs` loop. Every file's task runs from its
    saved position; a file whose task was collected gets the position that
    task returned (the end of its text, unless the read failed), and a file
    whose task raised or timed out keeps its position, so the same bytes are
    read again next cycle. Positions of other files are untouched. Then the
    daily flush runs if it is due.
   */
  function MonitorCycle(m: Monitor, logFiles: seq<string>, reportFile: string, now: string,
                        gateway: Gateway, failed: set<string>, due: Option<DailyTrigger>): (m': Monitor)
    requires forall f :: f in logFiles ==> f in m.positions
    ensures m'.positions.Keys == m.positions.Keys
    ensures forall f :: f in m.positions && (f !in logFiles || f in failed) ==> m'.positions[f] == m.positions[f]
    ensures forall f :: f in logFiles && f !in failed && f != reportFile ==>
              m'.positions[f] == ReadNewLogs(m.fs, f, m.positions[f]).position
    ensures due.None? ==> Unchanged(m.fs, m'.fs, reportFile)
    ensures m.outbox <= m'.outbox
  {
    var tasks := RunTasks(m.fs, logFiles, m.positions, reportFile, now, gateway);
    var positions := CollectPositions(m.positions, tasks.returned, failed);
    CollectedTaskPositions(m.fs, logFiles, m.positions, reportFile, now, gateway, failed);
    match due
    case None => Monitor(tasks.fs, positions, m.outbox + tasks.alerts)
    case Some(trigger) =>
      var flush := SendDailyReport(tasks.fs, reportFile, trigger.date, trigger.transport);
      Monitor(flush.fs, positions, m.outbox + tasks.alerts + flush.sent)
  }

  /**
    Collecting the futures: a file whose task returned takes the position it
    returned, unless the task failed; every other file keeps its own.
   */
  function CollectPositions(positions: map<string, nat>, returned: map<string, nat>, failed: set<string>)
    : (r: map<string, nat>)
    ensures r.Keys == positions.Keys
    ensures forall f :: f in positions && f in returned && f !in failed ==> r[f] == returned[f]
    ensures forall f :: f in positions && (f !in returned || f in failed) ==> r[f] == positions[f]
  {
    map f | f in positions :: if f in returned && f !in failed then returned[f] else positions[f]
  }

  /** The positions a cycle collects: the read's end for a file whose task returned, the saved one for every other file. */
  lemma CollectedTaskPositions(fs: FileSystem, logFiles: seq<string>, positions: map<string, nat>, reportFile: string,
                               now: string, gateway: Gateway, failed: set<string>)
    requires forall f :: f in logFiles ==> f in positions
    ensures var r := CollectPositions(positions, RunTasks(fs, logFiles, positions, reportFile, now, gateway).returned, failed);
            && r.Keys == positions.Keys
            && (forall f :: f in positions && (f !in logFiles || f in failed) ==> r[f] == positions[f])
            && (forall f :: f in logFiles && f !in failed && f != reportFile ==>
                  r[f] == ReadNewLogs(fs, f, positions[f]).position)
  {
  }

  /** Collecting tasks that all returned their file's saved position leaves the positions as they were. */
  lemma CollectUnmoved(positions: map<string, nat>, returned: map<string, nat>, failed: set<string>)
    requires forall f :: f in returned && f in positions ==> returned[f] == positions[f]
    ensures CollectPositions(positions, returned, failed) == positions
  {
    var r := CollectPositions(positions, returned, failed);
    assert forall f :: f in r ==> r[f] == positions[f];
  }

  /** A file that does not exist keeps its position through a cycle. */
  lemma MissingFileKeepsPosition(m: Monitor, logFiles: seq<string>, reportFile: string, now: string,
                                 gateway: Gateway, failed: set<string>, due: Option<DailyTrigger>, f: string)
    requires forall g :: g in logFiles ==> g in m.positions
    requires f in logFiles && f != reportFile && !Exists(m.fs, f)
    ensures MonitorCycle(m, logFiles, reportFile, now, gateway, failed, due).positions[f] == m.positions[f]
  {
  }

  /**
    A cycle with nothing new anywhere and no flush due changes nothing but
    leaves every position where it was: no entry, no alert.
   */
  lemma QuietCycleChangesNothing(m: Monitor, logFiles: seq<string>, reportFile: string, now: string,
                                 gateway: Gateway, failed: set<string>)
    requires forall f :: f in logFiles ==> f in m.positions
    requires forall f :: f in logFiles ==> |ReadNewLogs(m.fs, f, m.positions[f]).lines| == 0
    requires forall f :: f in logFiles ==> ReadNewLogs(m.fs, f, m.positions[f]).position == m.positions[f]
    ensures MonitorCycle(m, logFiles, reportFile, now, gateway, failed, None) == m
  {
    var tasks := CycleWithoutFlush(m, logFiles, reportFile, now, gateway, failed);
    QuietTasksCollected(m.fs, logFiles, m.positions, reportFile, now, gateway, failed);
    assert m.outbox + tasks.alerts == m.outbox;
  }

  /** Quiet tasks, collected, leave the files, the positions and the mail as they were. */
  lemma QuietTasksCollected(fs: FileSystem, logFiles: seq<string>, positions: map<string, nat>,
                            reportFile: string, now: string, gateway: Gateway, failed: set<string>)
    requires forall f :: f in logFiles ==> f in positions
    requires forall f :: f in logFiles ==> |ReadNewLogs(fs, f, positions[f]).lines| == 0
    requires forall f :: f in logFiles ==> ReadNewLogs(fs, f, positions[f]).position == positions[f]
    ensures var r := RunTasks(fs, logFiles, positions, reportFile, now, gateway);
            r.fs == fs && r.alerts == [] && CollectPositions(positions, r.returned, failed) == positions
  {
    QuietTasks(fs, logFiles, positions, reportFile, now, gateway);
    CollectUnmoved(positions, RunTasks(fs, logFiles, positions, reportFile, now, gateway).returned, failed);
  }

  /** A cycle with no flush due is its tasks, collected. */
  lemma CycleWithoutFlush(m: Monitor, logFiles: seq<string>, reportFile: string, now: string,
                          gateway: Gateway, failed: set<string>) returns (tasks: Tasks)
    requires forall f :: f in logFiles ==> f in m.positions
    ensures tasks == RunTasks(m.fs, logFiles, m.positions, reportFile, now, gateway)
    ensures MonitorCycle(m, logFiles, reportFile, now, gateway, failed, None)
            == Monitor(tasks.fs, CollectPositions(m.positions, tasks.returned, failed), m.outbox + tasks.alerts)
  {
    tasks := RunTasks(m.fs, logFiles, m.positions, reportFile, now, gateway);
  }

  lemma {:induction false} QuietTasks(fs: FileSystem, logFiles: seq<string>, positions: map<string, nat>,
                                      reportFile: string, now: string, gateway: Gateway)
    requires forall f :: f in logFiles ==> f in positions
    requires forall f :: f in logFiles ==> |ReadNewLogs(fs, f, positions[f]).lines| == 0
    requires forall f :: f in logFiles ==> ReadNewLogs(fs, f, positions[f]).position == positions[f]
    ensures var r := RunTasks(fs, logFiles, positions, reportFile, now, gateway);
            r.fs == fs && r.alerts == [] && forall f :: f in r.returned ==> r.returned[f] == positions[f]
    decreases |logFiles|
  {
    if |logFiles| > 0 {
      var f := logFiles[0];
      assert f in logFiles;
      ProcessLogFileOutcome(fs, f, positions[f], reportFile, now, gateway);
      QuietTasks(fs, logFiles[1..], positions, reportFile, now, gateway);
    }
  }
}

=== FILE: paths.dfy ===
/** POSIX path helpers as Python's `posixpath` computes them: `basename`, `dirname`, `join`. */
module Paths {

  /** The index of the last `/` in `p`, or -1 when there is none (Python's `p.rfind('/')`). */
  function LastSlash(p: string): (r: int)
    ensures -1 <= r < |p|
    ensures r >= 0 ==> p[r] == '/'
    ensures forall k :: r < k < |p| ==> p[k] != '/'
    decreases |p|
  {
    if |p| == 0 then -1
    else if p[|p| - 1] == '/' then |p| - 1
    else LastSlash(p[..|p| - 1])
  }

  /** `os.path.basename`: the text after the last `/`. */
  function Basename(p: string): (b: string)
    ensures '/' !in b
    ensures |b| <= |p| && b == p[|p| - |b|..]
    ensures |b| < |p| ==> p[|p| - |b| - 1] == '/'
  {
    p[LastSlash(p) + 1..]
  }

  predicate AllSlashes(s: string) {
    forall k :: 0 <= k < |s| ==> s[k] == '/'
  }

  /** `s.rstrip('/')`. */
  function TrimSlashes(s: string): (r: string)
    ensures |r| <= |s| && r == s[..|r|]
    ensures forall k :: |r| <= k < |s| ==> s[k] == '/'
    ensures |r| > 0 ==> r[|r| - 1] != '/'
    decreases |s|
  {
    if |s| > 0 && s[|s| - 1] == '/' then TrimSlashes(s[..|s| - 1]) else s
  }

  /**
    `os.path.dirname`: everything up to the last `/`, with trailing slashes
    removed unless the head consists of slashes only (the root).
   */
  function Dirname(p: string): string {
    var head := p[..LastSlash(p) + 1];
    if |head| > 0 && !AllSlashes(head) then TrimSlashes(head) else head
  }

  /** A path without `/` has an empty directory part. */
  lemma NoSlashNoDirname(p: string)
    requires '/' !in p
    ensures Dirname(p) == ""
  {
    assert LastSlash(p) == -1;
  }

  /** `os.path.join(a, b)`: an absolute `b` replaces `a`; otherwise one `/` separates them. */
  function Join(a: string, b: string): (r: string)
    ensures |b| > 0 && b[0] == '/' ==> r == b
  {
    if |b| > 0 && b[0] == '/' then b
    else if |a| == 0 || a[|a| - 1] == '/' then a + b
    else a + "/" + b
  }

  /**
    Joining a directory with a plain name and splitting the result again gives
    back both parts: `dirname` recovers the directory and `basename` the name.
   */
  lemma JoinThenSplit(dir: string, name: string)
    requires '/' !in name
    requires |dir| == 0 || dir[|dir| - 1] != '/'
    ensures Dirname(Join(dir, name)) == dir
    ensures Basename(Join(dir, name)) == name
  {
    var p := Join(dir, name);
    if |dir| == 0 {
      assert p == name;
      assert LastSlash(p) == -1;
    } else {
      assert p == dir + "/" + name;
      assert p[|dir|] == '/';
      assert LastSlash(p) == |dir|;
      var head := p[..|dir| + 1];
      assert head == dir + "/";
      assert head[|dir| - 1] != '/';
      assert TrimSlashes(head) == TrimSlashes(dir);
    }
  }
}

=== FILE: severity.dfy ===
/**
  The severity score of an analysis (`extract_severity_score` in
  src/log_monitor.py): the leftmost match of `SEVERITY_SCORE:\s*(\d+)`, its
  digits read as an integer and clamped to 0..10; no match scores 0.
 */
module Severity {
  import opened Common
  import opened Text

  const ScoreToken: string := "SEVERITY_SCORE:"

  /** The first index at or after `i` that is not whitespace: where a greedy `\s*` stops. */
  function SkipSpaces(s: string, i: nat): (j: nat)
    requires i <= |s|
    ensures i <= j <= |s|
    ensures forall k :: i <= k < j ==> IsSpace(s[k])
    ensures j < |s| ==> !IsSpace(s[j])
    decreases |s| - i
  {
    if i < |s| && IsSpace(s[i]) then SkipSpaces(s, i + 1) else i
  }

  /** The first index at or after `i` that is not a digit: where a greedy `\d+` stops. */
  function DigitsEnd(s: string, i: nat): (j: nat)
    requires i <= |s|
    ensures i <= j <= |s|
    ensures forall k :: i <= k < j ==> IsDigit(s[k])
    ensures j < |s| ==> !IsDigit(s[j])
    decreases |s| - i
  {
    if i < |s| && IsDigit(s[i]) then DigitsEnd(s, i + 1) else i
  }

  /** Where the digits of a match starting at `i` begin. */
  function DigitsStart(s: string, i: nat): nat
    requires i + |ScoreToken| <= |s|
  {
    SkipSpaces(s, i + |ScoreToken|)
  }

  /**
    The pattern matches at `i`: the token, then whitespace, then a digit. A
    greedy `\s*` that gives back whitespace only puts whitespace where `\d`
    must match, so backtracking never finds a match this misses.
   */
  predicate MatchAt(s: string, i: nat) {
    && i + |ScoreToken| <= |s|
    && s[i..i + |ScoreToken|] == ScoreToken
    && DigitsStart(s, i) < |s|
    && IsDigit(s[DigitsStart(s, i)])
  }

  /** The captured group of a match at `i`: the maximal digit run after the whitespace. */
  function MatchedDigits(s: string, i: nat): (d: string)
    requires MatchAt(s, i)
    ensures IsDecimal(d)
  {
    var j := DigitsStart(s, i);
    s[j..DigitsEnd(s, j)]
  }

  /** `i` is the leftmost match, the one `re.search` reports. */
  predicate IsFirstMatch(s: string, i: nat) {
    MatchAt(s, i) && forall k: nat :: k < i ==> !MatchAt(s, k)
  }

  /** `re.search`: scans start positions left to right from `from`. */
  function FindMatch(s: string, from: nat): (r: Option<nat>)
    requires from <= |s|
    ensures r.Some? ==> from <= r.value <= |s| && MatchAt(s, r.value)
    ensures r.Some? ==> forall k: nat :: from <= k < r.value ==> !MatchAt(s, k)
    ensures r.None? ==> forall k: nat :: from <= k ==> !MatchAt(s, k)
    decreases |s| - from
  {
    if MatchAt(s, from) then Some(from)
    else if from == |s| then None
    else FindMatch(s, from + 1)
  }

  /** `max(0, min(10, n))`. */
  function Clamp(n: int): (r: int)
    ensures 0 <= r <= 10
    ensures 0 <= n <= 10 ==> r == n
    ensures n > 10 ==> r == 10
    ensures n < 0 ==> r == 0
  {
    if n < 0 then 0 else if n > 10 then 10 else n
  }

  /**
    `extract_severity_score(analysis)`: always within 0..10; with no match
    anywhere it is 0; otherwise the clamped value of the leftmost match's
    whole digit run, whatever follows it.
   */
  function ExtractSeverityScore(analysis: string): (score: int)
    ensures 0 <= score <= 10
    ensures (forall k: nat :: !MatchAt(analysis, k)) ==> score == 0
    ensures forall i: nat :: IsFirstMatch(analysis, i) ==>
              score == Clamp(DecimalValue(MatchedDigits(analysis, i)))
  {
    match FindMatch(analysis, 0)
    case None => 0
    case Some(i) =>
      assert forall j: nat :: IsFirstMatch(analysis, j) ==> j == i;
      Clamp(DecimalValue(MatchedDigits(analysis, i)))
  }

  /**
    An analysis that opens with the protocol line scores the clamped value of
    the digits on that line, whatever text (and whatever later score lines) follow.
   */
  lemma {:induction false} LeadingScoreLine(spaces: string, digits: string, rest: string)
    requires forall k :: 0 <= k < |spaces| ==> IsSpace(spaces[k])
    requires IsDecimal(digits)
    requires |rest| == 0 || !IsDigit(rest[0])
    ensures ExtractSeverityScore(ScoreToken + spaces + digits + rest) == Clamp(DecimalValue(digits))
  {
    var s := ScoreToken + spaces + digits + rest;
    var t := |ScoreToken|;
    assert s[0..t] == ScoreToken;
    SkipSpacesOver(s, t, spaces);
    var j := t + |spaces|;
    assert s[j] == digits[0];
    DigitsEndOver(s, j, digits);
    assert s[j..j + |digits|] == digits;
    assert IsFirstMatch(s, 0);
  }

  lemma {:induction false} SkipSpacesOver(s: string, i: nat, spaces: string)
    requires i + |spaces| <= |s| && s[i..i + |spaces|] == spaces
    requires forall k :: 0 <= k < |spaces| ==> IsSpace(spaces[k])
    requires i + |spaces| < |s| && !IsSpace(s[i + |spaces|])
    ensures SkipSpaces(s, i) == i + |spaces|
    decreases |spaces|
  {
    if |spaces| > 0 {
      assert s[i] == spaces[0];
      assert s[i + 1..i + 1 + |spaces[1..]|] == spaces[1..];
      SkipSpacesOver(s, i + 1, spaces[1..]);
    }
  }

  lemma {:induction false} DigitsEndOver(s: string, i: nat, digits: string)
    requires i + |digits| <= |s| && s[i..i + |digits|] == digits
    requires AllDigits(digits)
    requires i + |digits| == |s| || !IsDigit(s[i + |digits|])
    ensures DigitsEnd(s, i) == i + |digits|
    decreases |digits|
  {
    if |digits| > 0 {
      assert s[i] == digits[0];
      assert s[i + 1..i + 1 + |digits[1..]|] == digits[1..];
      DigitsEndOver(s, i + 1, digits[1..]);
    }
  }

  /** Every match starts with the token, so a text without an `S` has none. */
  lemma NoTokenNoScore(s: string)
    requires 'S' !in s
    ensures ExtractSeverityScore(s) == 0
  {
    forall k: nat
      ensures !MatchAt(s, k)
    {
      if k + |ScoreToken| <= |s| {
        assert s[k] != 'S';
        assert s[k..k + |ScoreToken|][0] == s[k];
      }
    }
  }

  /** The unit test: "SEVERITY_SCORE: 8" followed by text scores 8. */
  lemma ScoreEightIsEight()
    ensures ExtractSeverityScore(ScoreToken + " " + "8" + "\nCritical issue detected") == 8
  {
    LeadingScoreLine(" ", "8", "\nCritical issue detected");
    assert DecimalValue("8") == 8;
  }

  /** The unit test: a text without the token scores 0. */
  lemma NoScoreIsZero()
    ensures ExtractSeverityScore("No score in this analysis") == 0
  {
    NoTokenNoScore("No score in this analysis");
  }

  /** The unit test: "SEVERITY_SCORE: 15" is clamped to 10. */
  lemma ScoreFifteenIsClamped()
    ensures ExtractSeverityScore(ScoreToken + " " + "15" + "\nInvalid score") == 10
  {
    LeadingScoreLine(" ", "15", "\nInvalid score");
    assert DecimalValue("15") == 15;
  }
}

=== FILE: tailer.dfy ===
/**
  Incremental reading of a log file from a saved position (`read_new_logs` in
  src/log_monitor.py). Positions are character indices into the decoded text.
 */
module Tailer {
  import opened Text
  import opened Host

  /** A line as `readlines()` returns it: non-empty, with a line break only as its last character. */
  predicate IsLine(l: string) {
    |l| > 0 && forall k :: 0 <= k < |l| - 1 ==> l[k] != '\n'
  }

  predicate Terminated(l: string) {
    |l| > 0 && l[|l| - 1] == '\n'
  }

  /** The index just after the first line break at or after `i`, or `|s|` when there is none. */
  function LineEnd(s: string, i: nat): (j: nat)
    requires i < |s|
    ensures i < j <= |s|
    ensures forall k :: i <= k < j - 1 ==> s[k] != '\n'
    ensures j < |s| ==> s[j - 1] == '\n'
    decreases |s| - i
  {
    if s[i] == '\n' || i + 1 == |s| then i + 1 else LineEnd(s, i + 1)
  }

  /**
    `file.readlines()`: the text cut after every line break. The lines put
    back together give the text, and only the last may lack its line break.
   */
  function SplitLines(s: string): (lines: seq<string>)
    ensures Concat(lines) == s
    ensures forall i :: 0 <= i < |lines| ==> IsLine(lines[i])
    ensures forall i :: 0 <= i < |lines| - 1 ==> Terminated(lines[i])
    decreases |s|
  {
    if |s| == 0 then []
    else
      var j := LineEnd(s, 0);
      var rest := SplitLines(s[j..]);
      var lines := [s[..j]] + rest;
      assert lines[1..] == rest;
      assert s == s[..j] + s[j..];
      lines
  }

  /** A text that begins with one whole terminated line splits into that line and the lines of the rest. */
  lemma SplitLinesAfterLine(line: string, rest: string)
    requires IsLine(line) && Terminated(line)
    ensures SplitLines(line + rest) == [line] + SplitLines(rest)
  {
    var s := line + rest;
    var j := LineEnd(s, 0);
    assert s[|line| - 1] == '\n';
    assert j == |line|;
    assert s[..j] == line && s[j..] == rest;
  }

  /**
    The lines of a text are determined by it: any sequence of lines that puts
    back together to the text, with a line break ending every line but the
    last, is the one `readlines()` returns.
   */
  lemma {:induction false} LinesDetermined(lines: seq<string>, s: string)
    requires Concat(lines) == s
    requires forall i :: 0 <= i < |lines| ==> IsLine(lines[i])
    requires forall i :: 0 <= i < |lines| - 1 ==> Terminated(lines[i])
    ensures lines == SplitLines(s)
    decreases |lines|
  {
    if |lines| == 1 {
      assert s == lines[0] + "";
      LastLineIsWhole(s);
    } else if |lines| > 1 {
      var rest := lines[1..];
      assert forall i :: 0 <= i < |rest| ==> rest[i] == lines[i + 1];
      LinesDetermined(rest, Concat(rest));
      SplitLinesAfterLine(lines[0], Concat(rest));
      assert lines == [lines[0]] + rest;
    }
  }

  /** A single line, terminated or not, splits as itself. */
  lemma LastLineIsWhole(s: string)
    requires IsLine(s)
    ensures SplitLines(s) == [s]
  {
    var j := LineEnd(s, 0);
    assert s[j - 1] == '\n' ==> j == |s|;
    assert s[..j] == s && s[j..] == "";
  }

  /** Lines are never empty, so lines that put together give no text are no lines at all. */
  lemma NoTextNoLines(lines: seq<string>)
    requires forall i :: 0 <= i < |lines| ==> IsLine(lines[i])
    ensures Concat(lines) == "" <==> |lines| == 0
  {
    assert |lines| == 0 || |Concat(lines)| >= |lines[0]|;
  }

  /** The new lines of one read and the position to resume from. */
  datatype Batch = Batch(lines: seq<string>, position: nat)

  /** The file can be opened and the saved position lies within its text. */
  predicate CanTail(fs: FileSystem, path: string, position: nat) {
    path in fs && fs[path].Present? && position <= |fs[path].content|
  }

  /**
    `read_new_logs(log_file, last_position)`: seek to the saved position, read
    every remaining line, report the end position. A missing file, a permission
    error or any other error gives no lines and the position unchanged. A
    position beyond the end of a shrunken file also reads nothing and keeps the
    position: truncation is never detected.
   */
  function ReadNewLogs(fs: FileSystem, path: string, lastPosition: nat): (b: Batch)
    ensures CanTail(fs, path, lastPosition) ==>
              && Concat(b.lines) == fs[path].content[lastPosition..]
              && b.position == |fs[path].content|
    ensures !CanTail(fs, path, lastPosition) ==> b == Batch([], lastPosition)
    ensures forall i :: 0 <= i < |b.lines| ==> IsLine(b.lines[i])
    ensures forall i :: 0 <= i < |b.lines| - 1 ==> Terminated(b.lines[i])
  {
    if path !in fs then Batch([], lastPosition)
    else match fs[path]
      case Present(content, _) =>
        if lastPosition <= |content| then Batch(SplitLines(content[lastPosition..]), |content|)
        else Batch([], lastPosition)
      case Denied => Batch([], lastPosition)
      case Broken => Batch([], lastPosition)
  }

  /** Reading again from the returned position after an append yields exactly the appended text. */
  lemma ReadAfterAppend(fs: FileSystem, path: string, content: string, appended: string)
    requires path in fs && fs[path].Present? && fs[path].content == content
    ensures ReadNewLogs(fs, path, 0).position == |content|
    ensures var b := ReadNewLogs(fs[path := Present(content + appended, fs[path].writable)], path, |content|);
            Concat(b.lines) == appended && b.position == |content| + |appended|
  {
    assert (content + appended)[|content|..] == appended;
  }

  /**
    The text a poller collects by reading a file once per snapshot, each time
    from the position the previous read returned.
   */
  function CollectedText(path: string, snapshots: seq<string>, position: nat): string
    decreases |snapshots|
  {
    if |snapshots| == 0 then ""
    else
      var b := ReadNewLogs(map[path := Present(snapshots[0], true)], path, position);
      Concat(b.lines) + CollectedText(path, snapshots[1..], b.position)
  }

  /** Each snapshot extends the one before it: the file only grows by appends. */
  predicate AppendOnly(snapshots: seq<string>) {
    forall i :: 0 <= i < |snapshots| - 1 ==> snapshots[i] <= snapshots[i + 1]
  }

  lemma {:induction false} AppendOnlyPrefixOfLast(snapshots: seq<string>)
    requires |snapshots| > 0 && AppendOnly(snapshots)
    ensures snapshots[0] <= snapshots[|snapshots| - 1]
    decreases |snapshots|
  {
    if |snapshots| > 1 {
      AppendOnlyPrefixOfLast(snapshots[1..]);
    }
  }

  /**
    Read completeness: while a file only grows, tailing it from position `p`
    and feeding back every returned position yields every character after `p`
    exactly once and in order.
   */
  lemma {:induction false} TailingIsComplete(path: string, snapshots: seq<string>, position: nat)
    requires |snapshots| > 0 && AppendOnly(snapshots)
    requires position <= |snapshots[0]|
    ensures position <= |snapshots[|snapshots| - 1]|
    ensures CollectedText(path, snapshots, position) == snapshots[|snapshots| - 1][position..]
    decreases |snapshots|
  {
    var first := snapshots[0];
    var last := snapshots[|snapshots| - 1];
    var rest := snapshots[1..];
    CollectedStep(path, snapshots, position);
    AppendOnlyPrefixOfLast(snapshots);
    if |snapshots| == 1 {
      assert CollectedText(path, rest, |first|) == "";
      assert first[position..] + "" == first[position..];
    } else {
      assert AppendOnly(rest);
      assert first <= rest[0];
      TailingIsComplete(path, rest, |first|);
      assert rest[|rest| - 1] == last;
      SuffixThroughPrefix(first, last, position);
    }
  }

  /** The text after `p` in a longer version of a file is the rest of the shorter one, then what was appended. */
  lemma SuffixThroughPrefix(first: string, last: string, p: nat)
    requires first <= last && p <= |first|
    ensures last[p..] == first[p..] + last[|first|..]
  {
  }

  /** One poll reads the first snapshot from the position to its end, and the next poll starts there. */
  lemma CollectedStep(path: string, snapshots: seq<string>, position: nat)
    requires |snapshots| > 0 && position <= |snapshots[0]|
    ensures CollectedText(path, snapshots, position)
              == snapshots[0][position..] + CollectedText(path, snapshots[1..], |snapshots[0]|)
  {
    assert CanTail(map[path := Present(snapshots[0], true)], path, position);
  }

  /** Three whole lines split back into exactly those three lines. */
  lemma SplitThreeLines(l1: string, l2: string, l3: string)
    requires IsLine(l1) && Terminated(l1) && IsLine(l2) && Terminated(l2) && IsLine(l3) && Terminated(l3)
    ensures SplitLines(l1 + l2 + l3) == [l1, l2, l3]
  {
    SplitLinesAfterLine(l3, "");
    assert l3 + "" == l3;
    SplitLinesAfterLine(l2, l3);
    SplitLinesAfterLine(l1, l2 + l3);
    assert l1 + l2 + l3 == l1 + (l2 + l3);
  }

  /** Reading three whole lines from 0, then one appended line from the returned position. */
  lemma ThreeLinesThenOneLine(path: string, l1: string, l2: string, l3: string, l4: string)
    requires IsLine(l1) && Terminated(l1) && IsLine(l2) && Terminated(l2) && IsLine(l3) && Terminated(l3)
    requires IsLine(l4) && Terminated(l4)
    ensures var fs := map[path := Present(l1 + l2 + l3, true)];
            var b1 := ReadNewLogs(fs, path, 0);
            var b2 := ReadNewLogs(fs[path := Present(l1 + l2 + l3 + l4, true)], path, b1.position);
            b1.lines == [l1, l2, l3] && b1.position > 0 && b2.lines == [l4]
  {
    var first := l1 + l2 + l3;
    SplitThreeLines(l1, l2, l3);
    assert first[0..] == first;
    SplitLinesAfterLine(l4, "");
    assert (first + l4)[|first|..] == l4 + "";
  }

  /**
    The unit-test scenario: a file of three lines is read whole from 0; after
    one more line is appended, reading from the returned position yields just
    that line.
   */
  lemma ThreeLinesThenOne()
    ensures var fs := map["test.log" := Present(TestLine1 + TestLine2 + TestLine3, true)];
            var b1 := ReadNewLogs(fs, "test.log", 0);
            var b2 := ReadNewLogs(fs["test.log" := Present(TestLine1 + TestLine2 + TestLine3 + TestLine4, true)], "test.log", b1.position);
            |b1.lines| == 3 && b1.position > 0 && b2.lines == [TestLine4]
  {
    assert IsLine(TestLine1) && Terminated(TestLine1);
    assert IsLine(TestLine2) && Terminated(TestLine2);
    assert IsLine(TestLine3) && Terminated(TestLine3);
    assert IsLine(TestLine4) && Terminated(TestLine4);
    ThreeLinesThenOneLine("test.log", TestLine1, TestLine2, TestLine3, TestLine4);
  }

  const TestLine1 := "Line 1: Normal log entry\n"
  const TestLine2 := "Line 2: ERROR: Something went wrong\n"
  const TestLine3 := "Line 3: WARNING: Potential issue\n"
  const TestLine4 := "Line 4: New entry\n"
}

=== FILE: text.dfy ===
/**
  Python `str` operations the monitor relies on, over strings as `seq<char>`:
  the whitespace class shared by `\s`, `str.strip()` and `str.split()`,
  decimal digit runs, `str.split(sep)` and its inverse `sep.join`.
 */
module Text {

  /** Python's `str.isspace()`; `re`'s `\s` on a `str` pattern matches the same characters. */
  predicate IsSpace(c: char) {
    || ('\t' <= c <= '\r')
    || ('\U{1C}' <= c <= '\U{1F}')
    || c == ' ' || c == '\U{85}' || c == '\U{A0}' || c == '\U{1680}'
    || ('\U{2000}' <= c <= '\U{200A}')
    || c == '\U{2028}' || c == '\U{2029}' || c == '\U{202F}' || c == '\U{205F}' || c == '\U{3000}'
  }

  /** A decimal digit; only the ASCII ones are modelled. */
  predicate IsDigit(c: char) {
    '0' <= c <= '9'
  }

  predicate AllDigits(s: string) {
    forall i :: 0 <= i < |s| ==> IsDigit(s[i])
  }

  /** Python's `s.isdigit()` for ASCII text: non-empty and digits only. */
  predicate IsDecimal(s: string) {
    |s| > 0 && AllDigits(s)
  }

  predicate NoSpace(s: string) {
    forall i :: 0 <= i < |s| ==> !IsSpace(s[i])
  }

  /** `sub` occurs in `s` starting at index `i`. */
  predicate OccursAt(s: string, sub: string, i: int) {
    0 <= i <= |s| - |sub| && s[i..i + |sub|] == sub
  }

  /** Python's `sub in s` for strings. */
  predicate Contains(s: string, sub: string) {
    exists i | 0 <= i <= |s| - |sub| :: OccursAt(s, sub, i)
  }

  function DigitValue(c: char): nat
    requires IsDigit(c)
  {
    (c as int) - ('0' as int)
  }

  function DigitChar(d: nat): (c: char)
    requires d < 10
    ensures IsDigit(c) && DigitValue(c) == d
  {
    ('0' as int + d) as char
  }

  /** Python's `int(s)` on a run of decimal digits, most significant first. */
  function DecimalValue(s: string): nat
    requires AllDigits(s)
    decreases |s|
  {
    if |s| == 0 then 0 else DecimalValue(s[..|s| - 1]) * 10 + DigitValue(s[|s| - 1])
  }

  /** Python's `str(n)` for a non-negative integer: the inverse of `DecimalValue`. */
  function NatToString(n: nat): (s: string)
    ensures IsDecimal(s) && DecimalValue(s) == n
    ensures |s| > 1 ==> s[0] != '0'
    decreases n
  {
    if n < 10 then [DigitChar(n)]
    else
      var prefix := NatToString(n / 10);
      var s := prefix + [DigitChar(n % 10)];
      assert s[..|s| - 1] == prefix;
      s
  }

  /** Python's `str(i)` (and an f-string field) for any integer. */
  function IntToString(i: int): (s: string)
    ensures i >= 0 ==> IsDecimal(s) && DecimalValue(s) == i
    ensures i < 0 ==> |s| > 1 && s[0] == '-' && IsDecimal(s[1..]) && DecimalValue(s[1..]) == -i
  {
    if i < 0 then "-" + NatToString(-i) else NatToString(i)
  }

  /** Python's `str.lstrip()`: drops the leading whitespace and nothing else. */
  function TrimStart(s: string): (r: string)
    ensures |r| <= |s| && r == s[|s| - |r|..]
    ensures forall i :: 0 <= i < |s| - |r| ==> IsSpace(s[i])
    ensures |r| > 0 ==> !IsSpace(r[0])
    decreases |s|
  {
    if |s| > 0 && IsSpace(s[0]) then TrimStart(s[1..]) else s
  }

  /** Python's `str.rstrip()`: drops the trailing whitespace and nothing else. */
  function TrimEnd(s: string): (r: string)
    ensures |r| <= |s| && r == s[..|r|]
    ensures forall i :: |r| <= i < |s| ==> IsSpace(s[i])
    ensures |r| > 0 ==> !IsSpace(r[|r| - 1])
    decreases |s|
  {
    if |s| > 0 && IsSpace(s[|s| - 1]) then TrimEnd(s[..|s| - 1]) else s
  }

  /** Python's `str.strip()`. */
  function Strip(s: string): string {
    TrimEnd(TrimStart(s))
  }

  /** The number of occurrences of `c` in `s`. */
  function CountChar(s: string, c: char): nat
    decreases |s|
  {
    if |s| == 0 then 0 else (if s[0] == c then 1 else 0) + CountChar(s[1..], c)
  }

  /** Python's `sep.join(parts)` for a one-character separator. */
  function JoinWith(parts: seq<string>, sep: char): string
    requires |parts| > 0
    decreases |parts|
  {
    if |parts| == 1 then parts[0] else parts[0] + [sep] + JoinWith(parts[1..], sep)
  }

  /**
    Python's `s.split(sep)` for a one-character separator: the pieces between
    separators, empty ones included, and always at least one.
   */
  function SplitOn(s: string, sep: char): (parts: seq<string>)
    ensures |parts| == CountChar(s, sep) + 1
    ensures forall i :: 0 <= i < |parts| ==> sep !in parts[i]
    ensures JoinWith(parts, sep) == s
    decreases |s|
  {
    if |s| == 0 then [""]
    else
      var rest := SplitOn(s[1..], sep);
      if s[0] == sep then
        var parts := [""] + rest;
        assert parts[1..] == rest;
        parts
      else
        var parts := [[s[0]] + rest[0]] + rest[1..];
        assert parts[1..] == rest[1..];
        assert |rest| > 1 ==> rest == [rest[0]] + rest[1..];
        parts
  }

  /** A piece without the separator splits to itself. */
  lemma {:induction false} SplitOnWithoutSeparator(a: string, sep: char)
    requires sep !in a
    ensures SplitOn(a, sep) == [a]
    decreases |a|
  {
    if |a| > 0 {
      assert sep !in a[1..] by {
        forall k | 0 <= k < |a[1..]| ensures a[1..][k] != sep { assert a[1..][k] == a[k + 1]; }
      }
      SplitOnWithoutSeparator(a[1..], sep);
      assert [a[0]] + a[1..] == a;
    }
  }

  /** Splitting stops at the first separator: the piece before it, then the split of the rest. */
  lemma {:induction false} SplitOnAfterPiece(a: string, sep: char, rest: string)
    requires sep !in a
    ensures SplitOn(a + [sep] + rest, sep) == [a] + SplitOn(rest, sep)
    decreases |a|
  {
    var s := a + [sep] + rest;
    if |a| == 0 {
      assert s[1..] == rest;
    } else {
      assert sep !in a[1..] by {
        forall k | 0 <= k < |a[1..]| ensures a[1..][k] != sep { assert a[1..][k] == a[k + 1]; }
      }
      assert s[1..] == a[1..] + [sep] + rest;
      SplitOnAfterPiece(a[1..], sep, rest);
      assert [a[0]] + a[1..] == a;
    }
  }

  /** `sep.join(parts).split(sep) == parts` when no part contains the separator. */
  lemma {:induction false} SplitOnJoinWith(parts: seq<string>, sep: char)
    requires |parts| > 0
    requires forall i :: 0 <= i < |parts| ==> sep !in parts[i]
    ensures SplitOn(JoinWith(parts, sep), sep) == parts
    decreases |parts|
  {
    if |parts| == 1 {
      SplitOnWithoutSeparator(parts[0], sep);
    } else {
      SplitOnJoinWith(parts[1..], sep);
      SplitOnAfterPiece(parts[0], sep, JoinWith(parts[1..], sep));
      assert [parts[0]] + parts[1..] == parts;
    }
  }

  /** The concatenation of a sequence of strings, Python's `''.join(parts)`. */
  function Concat(parts: seq<string>): string
    decreases |parts|
  {
    if |parts| == 0 then "" else parts[0] + Concat(parts[1..])
  }

  lemma {:induction false} ConcatAppend(a: seq<string>, b: seq<string>)
    ensures Concat(a + b) == Concat(a) + Concat(b)
    decreases |a|
  {
    if |a| == 0 {
      assert a + b == b;
    } else {
      assert (a + b)[1..] == a[1..] + b;
      ConcatAppend(a[1..], b);
    }
  }

  /** The length of the leading run of non-whitespace characters. */
  function WordLength(s: string): (k: nat)
    ensures k <= |s| && NoSpace(s[..k])
    ensures k < |s| ==> IsSpace(s[k])
    decreases |s|
  {
    if |s| == 0 || IsSpace(s[0]) then 0 else 1 + WordLength(s[1..])
  }

  /** Python's `s.split()` with no argument: the maximal runs of non-whitespace characters. */
  function Tokens(s: string): (ts: seq<string>)
    ensures forall t :: t in ts ==> |t| > 0 && NoSpace(t)
    decreases |s|
  {
    var t := TrimStart(s);
    if |t| == 0 then []
    else
      var k := WordLength(t);
      [t[..k]] + Tokens(t[k..])
  }

  /** `s` with every whitespace character removed. */
  function RemoveSpaces(s: string): string
    decreases |s|
  {
    if |s| == 0 then "" else (if IsSpace(s[0]) then "" else [s[0]]) + RemoveSpaces(s[1..])
  }

  lemma {:induction false} RemoveSpacesAppend(a: string, b: string)
    ensures RemoveSpaces(a + b) == RemoveSpaces(a) + RemoveSpaces(b)
    decreases |a|
  {
    if |a| == 0 {
      assert a + b == b;
    } else {
      assert (a + b)[1..] == a[1..] + b;
      RemoveSpacesAppend(a[1..], b);
    }
  }

  lemma {:induction false} RemoveSpacesOfBlank(s: string)
    requires forall i :: 0 <= i < |s| ==> IsSpace(s[i])
    ensures RemoveSpaces(s) == ""
    decreases |s|
  {
    if |s| > 0 {
      RemoveSpacesOfBlank(s[1..]);
    }
  }

  lemma {:induction false} RemoveSpacesOfWord(s: string)
    requires NoSpace(s)
    ensures RemoveSpaces(s) == s
    decreases |s|
  {
    if |s| > 0 {
      RemoveSpacesOfWord(s[1..]);
    }
  }

  /** Splitting on whitespace loses exactly the whitespace: the tokens concatenate to the non-space characters. */
  lemma {:induction false} TokensKeepEveryNonSpace(s: string)
    ensures Concat(Tokens(s)) == RemoveSpaces(s)
    decreases |s|
  {
    var t := TrimStart(s);
    RemoveSpacesOfLead(s);
    if |t| > 0 {
      var k := WordLength(t);
      TokensKeepEveryNonSpace(t[k..]);
      ConcatOfFirstWord(t, k, Tokens(t[k..]));
    }
  }

  /** Removing the whitespace of `s` is removing it from `s` with its leading whitespace trimmed. */
  lemma RemoveSpacesOfLead(s: string)
    ensures RemoveSpaces(s) == RemoveSpaces(TrimStart(s))
  {
    var t := TrimStart(s);
    var lead := s[..|s| - |t|];
    assert s == lead + t;
    RemoveSpacesAppend(lead, t);
    RemoveSpacesOfBlank(lead);
  }

  /** The first word of `t` followed by the tokens after it concatenate to the word and then those tokens' text. */
  lemma ConcatOfFirstWord(t: string, k: nat, r: seq<string>)
    requires 0 < k <= |t| && NoSpace(t[..k])
    requires Concat(r) == RemoveSpaces(t[k..])
    ensures Concat([t[..k]] + r) == RemoveSpaces(t)
  {
    var w := t[..k];
    assert ([w] + r)[1..] == r;
    assert t == w + t[k..];
    RemoveSpacesAppend(w, t[k..]);
    RemoveSpacesOfWord(w);
  }

  /** Leading whitespace is invisible to `lstrip`. */
  lemma {:induction false} TrimStartAfterBlank(blank: string, rest: string)
    requires forall i :: 0 <= i < |blank| ==> IsSpace(blank[i])
    ensures TrimStart(blank + rest) == TrimStart(rest)
    decreases |blank|
  {
    if |blank| == 0 {
      assert blank + rest == rest;
    } else {
      assert (blank + rest)[1..] == blank[1..] + rest;
      TrimStartAfterBlank(blank[1..], rest);
    }
  }

  /** A word followed by whitespace is the first token; splitting goes on after the whitespace. */
  lemma TokensOfWordThen(word: string, blank: string, rest: string)
    requires |word| > 0 && NoSpace(word)
    requires |blank| > 0 && forall i :: 0 <= i < |blank| ==> IsSpace(blank[i])
    ensures Tokens(word + blank + rest) == [word] + Tokens(rest)
  {
    var s := word + blank + rest;
    assert TrimStart(s) == s;
    assert WordLength(s) == |word| by {
      WordLengthOfWord(word, blank + rest);
      assert s == word + (blank + rest);
    }
    assert s[..|word|] == word && s[|word|..] == blank + rest;
    assert Tokens(s) == [word] + Tokens(blank + rest);
    TokensAfterBlank(blank, rest);
  }

  /** Leading whitespace is invisible to `split()`. */
  lemma TokensAfterBlank(blank: string, rest: string)
    requires forall i :: 0 <= i < |blank| ==> IsSpace(blank[i])
    ensures Tokens(blank + rest) == Tokens(rest)
  {
    TrimStartAfterBlank(blank, rest);
  }

  /** A single word is its own only token. */
  lemma TokensOfWord(word: string)
    requires |word| > 0 && NoSpace(word)
    ensures Tokens(word) == [word]
  {
    WordLengthOfWord(word, "");
    assert word + "" == word;
    assert word[|word|..] == "";
  }

  lemma {:induction false} WordLengthOfWord(word: string, rest: string)
    requires NoSpace(word)
    requires |rest| == 0 || IsSpace(rest[0])
    ensures WordLength(word + rest) == |word|
    decreases |word|
  {
    if |word| == 0 {
      assert word + rest == rest;
    } else {
      assert (word + rest)[1..] == word[1..] + rest;
      WordLengthOfWord(word[1..], rest);
    }
  }
}
